=== FILE: README.md ===
# WaterCache in Dafny

A model of the core of WaterCache, a Java library that offers two things:

- an in-process cache (`WaterCache`) mapping string keys to items (`Cachable`);
- a delayed-task scheduler (`WaterScheduler`).

A cache item has a creation time and a lifetime, and may override three hooks:

- `tick()`;
- `onRegister(cache)`;
- `onDispose(reason)`, which can veto its own removal.

Each maintenance pass of the cache (`tick()`) visits every item. An expired item is asked for consent and removed if it gives it. A live item has its `tick()` called. A hook that throws an `Exception` is reported to the cache's listener and does not stop the pass.

The scheduler queues runnables under `int` ids and dispatches each one that is due. Without a provider it runs them itself; otherwise it hands them to the provider, a thread factory or an executor. It returns the earliest deadline still pending.

Modules, one per source file plus one for the Java language:

| module | file | models |
|---|---|---|
| `JavaLang` | `java_lang.dfy` | `long`/`int` wrap-around, `Throwable` (`Exception` vs `Error`), the outcome of a call that may throw, `null` as `Option` |
| `Cachables` | `cachable.dfy` | `Cachable.java`: fields, constructors, `getExpireTime()`, the default hooks |
| `CachedObjects` | `cached_object.dfy` | `CachedObject.java`: constructors and `get()` |
| `WaterCache` | `water_cache.dfy` | `WaterCache.java`: registration, lookup, removal, and the tick pass, with a reference definition of what a pass does to each item |
| `WaterCacheAsWritten` | `water_cache_as_written.dfy` | the keying of `WaterCache.java` exactly as written (see Findings) |
| `WaterScheduler` | `water_scheduler.dfy` | `WaterScheduler.java`: constructors, ids, `runAt`, `runAfter`, the dispatch pass, `Task.run` |

How the model is built:

- **Values, not objects.** Items and caches are immutable values.
- **Hooks as outcomes.** A subclass is modelled by the outcome of each hook it overrides (`Cachables.Hooks`: returns a value or throws) and by a state of its own (the type parameter `S`).
- **Logs.** Every cache operation returns the new cache, the log of hook calls and listener reports it made, and its Java outcome.
- **Clock as a parameter.** `System.currentTimeMillis()` is the parameter `now`.
- **Iteration order as a parameter.** A pass iterates in an order the source leaves unspecified: a sequence of keys (`WaterCache.Enumerates`) or of tasks (`WaterScheduler.IsSnapshot`).

Behaviour of the code worth knowing:

- **Id counter.** The scheduler's id counter is an `int` that wraps from `Integer.MAX_VALUE` to `Integer.MIN_VALUE` (`GetNewId`). Ids are reused after the counter wraps.
- **Negative lifetime.** The expiry time is `Long.MAX_VALUE`. An item with a negative lifetime is therefore found expired only by a pass whose clock reads exactly `Long.MAX_VALUE`, and removed by it if its `onDispose(EXPIRED)` consents (`NegativeLifeExpiresOnlyAtLongMax`).
- **Overflowing lifetime.** A finite lifetime whose sum with the creation time overflows gives an expiry time in the past (`Cachable.ExpireTime`).
- **Failing items.** A failing item does not stop the pass only when it throws an `Exception`. A hook that throws an `Error` aborts the pass (`TickAbortsOnError`).

## Model

| member | source | states |
|---|---|---|
| Cachables.DefaultHooksNeverVeto | src/main/java/xyz/e3ndr/watercache/cachable/Cachable.java:32-41 | the inherited `tick` and `onRegister` return normally and the inherited `onDispose` consents for both reasons |
| Cachables.Cachable.ExpireTime | src/main/java/xyz/e3ndr/watercache/cachable/Cachable.java:24-30 | creation time plus lifetime when that fits in a `long`, wrapped below the creation time when it overflows, `Long.MAX_VALUE` for a negative lifetime |
| Cachables.NewCachable | src/main/java/xyz/e3ndr/watercache/cachable/Cachable.java:10-14 | a fresh item has id -1 (unassigned), the construction time and lifetime -1, so its expire time is `Long.MAX_VALUE` |
| Cachables.NewCachableWithLife | src/main/java/xyz/e3ndr/watercache/cachable/Cachable.java:10-18 | the item keeps the given lifetime; it expires at creation time plus lifetime when that fits in a `long`, and at `Long.MAX_VALUE` for a negative lifetime |
| Cachables.NegativeLifeExpiresOnlyAtLongMax | src/main/java/xyz/e3ndr/watercache/cachable/Cachable.java:24-30 | with a negative lifetime the expiry test `expireTime <= now` holds exactly when `now == Long.MAX_VALUE` |
| Cachables.FiniteLifeExpiry | src/main/java/xyz/e3ndr/watercache/cachable/Cachable.java:24-30 | with a non-negative, non-overflowing lifetime an item is expired exactly from `timeCreated + life` on |
| Cachables.ExpiryIgnoresIdHooksAndState | src/main/java/xyz/e3ndr/watercache/cachable/Cachable.java:24-30 | the expire time depends only on creation time and lifetime |
| Cachables.ZeroLifeExpiredFromCreation | src/main/java/xyz/e3ndr/watercache/cachable/Cachable.java:16-30 | a zero lifetime makes the item expired at every clock value from its creation on |
| CachedObjects.NewEmpty | src/main/java/xyz/e3ndr/watercache/cachable/CachedObject.java:14 | no object, default hooks, unassigned id, expired at no clock value below `Long.MAX_VALUE` |
| CachedObjects.NewWithLife | src/main/java/xyz/e3ndr/watercache/cachable/CachedObject.java:16-18 | no object, default hooks, the given lifetime kept as is, and its expire time when that fits in a `long` (`Long.MAX_VALUE` for a negative one) |
| CachedObjects.NewWithObject | src/main/java/xyz/e3ndr/watercache/cachable/CachedObject.java:10-12 | the all-arguments constructor throws `NullPointerException` exactly for a `null` object; otherwise lifetime -1 and default hooks |
| CachedObjects.GetReturnsConstructedObject | src/main/java/xyz/e3ndr/watercache/cachable/CachedObject.java:10-26 | `get()` returns the object given to the constructor |
| WaterCache.CachedObjectKeepsItsObject | src/main/java/xyz/e3ndr/watercache/cachable/CachedObject.java:24-26 | `get()` on the item a cache holds under a key returns the object registered there, and a tick never changes what `get()` returns on the items it keeps |
| WaterCache.NewCache | src/main/java/xyz/e3ndr/watercache/WaterCache.java:17-19 | a new cache is empty, has no listener and is well keyed |
| WaterCache.SetListener | src/main/java/xyz/e3ndr/watercache/WaterCache.java:19 | setting the listener changes no item |
| WaterCache.RegisterItem | src/main/java/xyz/e3ndr/watercache/WaterCache.java:21-29 | the caller's item comes back with its id set to the key and nothing else changed, and the key maps to that very item; the key set grows by exactly that key; other items are unchanged; `onRegister` is called once and its throw reaches the caller; well-keyedness is kept |
| WaterCache.GetItemById | src/main/java/xyz/e3ndr/watercache/WaterCache.java:31-33 | returns the stored item exactly when the key is present, `null` otherwise |
| WaterCache.HasItemId | src/main/java/xyz/e3ndr/watercache/WaterCache.java:35-37 | true exactly when `getItemById` finds an item |
| WaterCache.HasItem | src/main/java/xyz/e3ndr/watercache/WaterCache.java:39-41 | true exactly when the item has an id and that id is a present key |
| WaterCache.RemoveItemById | src/main/java/xyz/e3ndr/watercache/WaterCache.java:43-52 | an absent key changes nothing, calls no hook and returns false; a present key is removed whatever `onDispose(MANUAL)` returns, that hook is called once, and the result is true unless the hook throws |
| WaterCache.RemoveItem | src/main/java/xyz/e3ndr/watercache/WaterCache.java:54-61 | as `removeItemById` on the item's own id, with the hook called on the item passed in; an unregistered item changes nothing; the listener and well-keyedness are kept |
| WaterCache.RegisterThenRemoveRestores | src/main/java/xyz/e3ndr/watercache/WaterCache.java:21-52 | removing a key just registered under a fresh key gives back the original cache |
| WaterCache.RegisteredHandleIsFound | src/main/java/xyz/e3ndr/watercache/WaterCache.java:21-61 | after `registerItem(key, item)`, `hasItem(item)` is true and `removeItem(item)` removes the key and calls the item's `onDispose(MANUAL)` |
| WaterCache.RemoveItemAgreesWithRemoveItemById | src/main/java/xyz/e3ndr/watercache/WaterCache.java:39-61 | in a well-keyed cache, `removeItem(stored item)` and `removeItemById(its key)` have the same effect |
| WaterCache.Tick | src/main/java/xyz/e3ndr/watercache/WaterCache.java:95-113 | a pass keeps the listener, the only throwable that escapes it is an `Error`, and every item it keeps is the item it had, so a well-keyed cache stays well keyed even when an `Error` ends the pass |
| WaterCache.PassOnlyRemoves | src/main/java/xyz/e3ndr/watercache/WaterCache.java:98-111 | a pass only removes entries: every key left maps to the item it had |
| WaterCache.PassEscapesOnlyErrors | src/main/java/xyz/e3ndr/watercache/WaterCache.java:98-111 | the catch block stops every `Exception`; the pass escapes only with a non-`Exception` thrown by a visited hook |
| WaterCache.PassLog | src/main/java/xyz/e3ndr/watercache/WaterCache.java:98-111 | with no `Error`, the pass's hook calls are the reference list, one per key in order, and its reports are the failing keys in order, each with the exception its hook threw (none without listener) |
| WaterCache.PassItems | src/main/java/xyz/e3ndr/watercache/WaterCache.java:98-104 | with no `Error`, the pass removes exactly the keys whose item is expired and consents |
| WaterCache.PassLogInOrder | src/main/java/xyz/e3ndr/watercache/WaterCache.java:98-111 | with no `Error`, the pass's log is, key by key in order, the hook call followed directly by its report when the hook threw an `Exception` and a listener is set |
| WaterCache.PassLogUntilError | src/main/java/xyz/e3ndr/watercache/WaterCache.java:98-111 | a pass ended by an `Error` at the i-th key logs the items before it as above, then the failing hook call, with no report for it |
| WaterCache.PassStopsAtError | src/main/java/xyz/e3ndr/watercache/WaterCache.java:98-111 | the first `Error` ends the pass and escapes it |
| WaterCache.PassHookCallsUntilError | src/main/java/xyz/e3ndr/watercache/WaterCache.java:98-111 | after the first `Error` no item is visited: the hook calls are those of the items up to and including the failing one |
| WaterCache.PassStopsAtErrorItems | src/main/java/xyz/e3ndr/watercache/WaterCache.java:98-111 | a pass ended by an `Error` at the i-th key has removed exactly the consenting expired items among the keys before it |
| WaterCache.TickRemovesExactlyConsentingExpired | src/main/java/xyz/e3ndr/watercache/WaterCache.java:98-106 | with no `Error`, the tick returns normally, keeps exactly the items that are not expired-and-consenting, leaves each unchanged and stays well keyed |
| WaterCache.TickCallsEveryHookAndReportsEachFailureOnce | src/main/java/xyz/e3ndr/watercache/WaterCache.java:96-113 | with no `Error`, each item gets exactly one hook call in iteration order (`onDispose(EXPIRED)` or `tick()`), and the listener gets exactly one report per item whose hook threw, carrying the exception thrown, right after that hook call and before the next item's |
| WaterCache.TickAbortsOnError | src/main/java/xyz/e3ndr/watercache/WaterCache.java:96-111 | an `Error` from the i-th item's hook escapes `tick()`, items after it get no hook call, the consenting expired items before it are removed, and the cache stays well keyed; the log holds the items before it, each hook call followed by its report, then the failing hook call |
| WaterCache.ExpiredDefaultItemIsRemoved | src/main/java/xyz/e3ndr/watercache/WaterCache.java:99-103 | an expired item with the default `onDispose` is gone after the tick |
| WaterCache.VetoingItemStaysForNextTick | src/main/java/xyz/e3ndr/watercache/WaterCache.java:99-103 | an expired item whose `onDispose(EXPIRED)` returns false had that hook called by the tick and stays unchanged; it is in the next pass's key set, and the next pass, if no `Error` ends it, calls its `onDispose(EXPIRED)` again |
| WaterCache.LiveItemIsTickedAndKept | src/main/java/xyz/e3ndr/watercache/WaterCache.java:99-106 | an item that is not expired is kept unchanged, and the tick's hook calls include its `tick()` |
| WaterCacheAsWritten.SetLongField | src/main/java/xyz/e3ndr/watercache/WaterCache.java:24-26 | reflective `Field.set` on the `long` id succeeds exactly for a value that unwraps to `long`, and otherwise throws `IllegalArgumentException` |
| WaterCacheAsWritten.RegisterItemAsWritten | src/main/java/xyz/e3ndr/watercache/WaterCache.java:21-29 | as written, registration throws `IllegalArgumentException` and stores nothing |
| WaterCacheAsWritten.RegisterAsWrittenStoresNothing | src/main/java/xyz/e3ndr/watercache/WaterCache.java:21-29 | after registration as written the key is absent; after the intended one it is present |
| WaterCacheAsWritten.ContainsKey | src/main/java/xyz/e3ndr/watercache/WaterCache.java:40 | a `String`-keyed map contains a key only if it is a `String` that is present |
| WaterCacheAsWritten.HasItemAsWritten | src/main/java/xyz/e3ndr/watercache/WaterCache.java:39-41 | `hasItem` as written is always false |
| WaterCacheAsWritten.MapRemove | src/main/java/xyz/e3ndr/watercache/WaterCache.java:55 | removing a boxed `Long` from a `String`-keyed map removes nothing |
| WaterCacheAsWritten.LookupByLongIdMissesStoredItem | src/main/java/xyz/e3ndr/watercache/WaterCache.java:39-61 | an item under key "5" with id 5 is missed by the written `hasItem`/`remove` and found and removed by the intended ones |
| WaterScheduler.NewScheduler | src/main/java/xyz/e3ndr/watercache/scheduling/WaterScheduler.java:13-20 | empty queue, counter 0, synchronous dispatch |
| WaterScheduler.NewSchedulerWith | src/main/java/xyz/e3ndr/watercache/scheduling/WaterScheduler.java:22-32 | empty queue, counter 0, asynchronous dispatch |
| WaterScheduler.GetNewId | src/main/java/xyz/e3ndr/watercache/scheduling/WaterScheduler.java:105-107 | hands out the counter and steps it by one in `int` arithmetic, wrapping from `Integer.MAX_VALUE` to `Integer.MIN_VALUE`; the queue is untouched |
| WaterScheduler.RunAt | src/main/java/xyz/e3ndr/watercache/scheduling/WaterScheduler.java:34-44 | the new id maps to the new task, the queue gains exactly that id, other tasks are unchanged, and the id is the old counter |
| WaterScheduler.RunAfter | src/main/java/xyz/e3ndr/watercache/scheduling/WaterScheduler.java:46-48 | as `runAt` at `now + millis`: the queue gains exactly the new id, which maps to a task with the given runnable, that id and deadline `now + millis` when that fits in a `long`; other tasks, the provider and well-formedness are kept; the counter steps by one until it wraps |
| WaterScheduler.RunAllIdsConsecutive | src/main/java/xyz/e3ndr/watercache/scheduling/WaterScheduler.java:34-37 | successive `runAt` calls get consecutive ids until the counter wraps |
| WaterScheduler.FreshSchedulerIds | src/main/java/xyz/e3ndr/watercache/scheduling/WaterScheduler.java:17 | a new scheduler hands out 0, 1, 2, …, all distinct, for up to 2^31 tasks |
| WaterScheduler.Tick | src/main/java/xyz/e3ndr/watercache/scheduling/WaterScheduler.java:72-95 | the pass removes exactly the due tasks in synchronous mode and none in asynchronous mode; pending tasks stay; its log is the reference dispatch log; it returns `Long.MAX_VALUE` when nothing is pending and otherwise (clock at least -1) the earliest pending deadline; every task stays queued under its own id |
| WaterScheduler.Dispatch | src/main/java/xyz/e3ndr/watercache/scheduling/WaterScheduler.java:77-91 | one visit of the loop extends what the pass has done by one task: the dispatch log grows to the reference log, the synchronous queue loses exactly the due ids seen, an asynchronous queue is untouched, and "earliest pending deadline among the tasks seen" is kept |
| WaterScheduler.EarliestPendingStep | src/main/java/xyz/e3ndr/watercache/scheduling/WaterScheduler.java:87-91 | the deadline update keeps "earliest pending deadline among the tasks seen" |
| WaterScheduler.PendingNotDue | src/main/java/xyz/e3ndr/watercache/scheduling/WaterScheduler.java:76-91 | a task that is not due keeps its place in the queue |
| WaterScheduler.RunTask | src/main/java/xyz/e3ndr/watercache/scheduling/WaterScheduler.java:125-129 | `Task.run` removes the task's id from the queue, leaving the provider and counter as they are, then runs the runnable, whose outcome it passes on |
| WaterScheduler.ProviderRunsRemoveDueTasks | src/main/java/xyz/e3ndr/watercache/scheduling/WaterScheduler.java:76-129 | an asynchronous pass followed by the provider running each handed-off task in order removes from the queue exactly the due tasks, as a synchronous pass does |
| WaterScheduler.ProviderRunsMatchSyncEvents | src/main/java/xyz/e3ndr/watercache/scheduling/WaterScheduler.java:76-129 | the same runs produce the synchronous pass's events, except the swallowed throws, which go to the provider's thread |
| WaterScheduler.TaskEventsShape | src/main/java/xyz/e3ndr/watercache/scheduling/WaterScheduler.java:77-86 | a task produces events only when due, all about itself; asynchronously only a hand-off; synchronously dequeue then run |
| WaterScheduler.DispatchLogOnlyDueTasks | src/main/java/xyz/e3ndr/watercache/scheduling/WaterScheduler.java:76-92 | every event of a pass concerns a due task |
| WaterScheduler.AsyncPassHandsOffEveryDueTask | src/main/java/xyz/e3ndr/watercache/scheduling/WaterScheduler.java:77-79 | in asynchronous mode the pass only hands off, and hands off every due task |
| WaterScheduler.SyncPassRunsEveryDueTaskAfterDequeue | src/main/java/xyz/e3ndr/watercache/scheduling/WaterScheduler.java:80-86 | in synchronous mode every due task runs, a throwing one included, each right after its removal from the queue |
| WaterScheduler.DispatchModeFixedAtConstruction | src/main/java/xyz/e3ndr/watercache/scheduling/WaterScheduler.java:101-103 | `isAsynchronousDispatch()` is true exactly for a scheduler constructed with a thread factory or an executor, and `runAt`, `runAfter` and `Task.run` leave it as it was |
| WaterScheduler.RunTaskKeepsWellFormed | src/main/java/xyz/e3ndr/watercache/scheduling/WaterScheduler.java:125-129 | `Task.run` leaves every remaining task queued under its own id |
| WaterScheduler.ProviderRunsKeepWellFormed | src/main/java/xyz/e3ndr/watercache/scheduling/WaterScheduler.java:125-129 | so does any sequence of provider runs |

## Left out

- `Watchdog` and `WatchdogListener`, the supervision of the tick loop: outside this core.
- `start`/`stop`/`setup` of both classes, their threads, sleeps and the scheduler's `wait`/`notifyAll` wake-up: threads and timing are not modelled; a pass is one function call.
- Clock reads: `now` is a parameter. A cache pass uses one `now` for all items, whereas the source reads the clock once per item.
- Concurrency on the `ConcurrentHashMap`s: a pass iterates a fixed snapshot order and nothing else changes the map during it.
- The `TimeUnit` constructors and `runAfter`'s `unit.toMillis(amount)`: the model takes milliseconds; the unit conversion is JDK code that is not part of this model.
- `null` arguments (`@NonNull` throws `NullPointerException`): keys and items given to the cache, the runnable of `runAt`/`runAfter`, the unit of `runAfter`, and the factory or executor given to a scheduler's constructor are always present values.
- A listener whose `onTickException` throws: the listener is only "set or not".
- Side effects of hooks on the item's own fields or on the cache: a hook is an outcome only.
- Object identity of items: `removeItem` compares by id only, as the source does; aliasing is not modelled.
- Runnables that schedule further tasks while running: a runnable is an outcome only.
- The provider's `run(task)`: recorded as a hand-off event; what the provider's thread later does is `RunTask`, and `ProviderRuns` runs the handed-off tasks after the pass, in hand-off order. Concurrent runs and a task handed off again by a later pass before it ran are not modelled.
- A provider whose `run(task)` throws (an executor's `RejectedExecutionException`, a factory returning `null`): the call is outside any `try`, so in the source the throw aborts the pass, leaving later due tasks undispatched and no deadline returned. The model's hand-off always succeeds.
- `printStackTrace` of a throwable swallowed by the scheduler: recorded as an event.
- `Example.java`: a usage example.
- WaterScheduler.Tick: the deadline guarantee is stated for clock values of at least -1. Below that, a pending deadline of -1 makes the source's `nextTick != -1` guard freeze the result at -1, which the contract does not describe beyond "`Long.MAX_VALUE` or after `now`".
- WaterCache.RegisterItem: items are values, so registering one object under two keys stores two copies, each with its own key as id. In the source, with the lookup by key that Findings describes as intended, both entries are the same object, whose id is the later key. `hasItem` and `removeItem` on it then reach only the later entry. So does the tick's `remove(item.getId())` (WaterCache.java:102): the earlier entry is never removed, and its `onDispose(EXPIRED)` is called again on every pass.
- WaterCache.Tick: the contract covers the outcome and the kept items only. What the pass does to items and to the log is stated by the lemmas `TickRemovesExactlyConsentingExpired`, `TickCallsEveryHookAndReportsEachFailureOnce` and `TickAbortsOnError`.

## Findings

| source | as written | input that shows it | evidently intended | confidence | as-written member | corrected member |
|---|---|---|---|---|---|---|
| src/main/java/xyz/e3ndr/watercache/WaterCache.java:24-26 | `registerItem` stores the `String` key into the `long` field `id` through reflection; `Field.set` throws `IllegalArgumentException` (rethrown by `@SneakyThrows`) before the item is stored | `registerItem("a", item)` on an empty cache: throws, and `hasItemId("a")` is false | the item gets the key as its id, is stored under it, and `onRegister` is called | not executed | WaterCacheAsWritten.RegisterAsWrittenStoresNothing | WaterCache.RegisterItem |
| src/main/java/xyz/e3ndr/watercache/WaterCache.java:39-41 | `hasItem`, `removeItem` and the tick's removal pass `item.getId()`, a boxed `Long`, to a `Map<String, Cachable>`, which equals no key | an item stored under "5" whose id is 5: `hasItem` is false, and `removeItem` and an expired pass remove nothing | look the item up under the key it was registered with | not executed | WaterCacheAsWritten.LookupByLongIdMissesStoredItem | WaterCache.HasItem |

=== FILE: cachable.dfy ===
/**
 The cache item (`Cachable.java`): a creation time fixed at construction, an id
 that is unassigned until a cache registers the item, a lifetime in milliseconds
 (negative meaning "never expires"), and three overridable hooks.

 A subclass is modelled by two things: the outcome of each hook it overrides
 (`Hooks`, an oracle saying whether the call returns or throws and what it
 returns) and its own fields (`state`, of a type chosen by the subclass).
 */
module Cachables {
  import opened JavaLang

  /** Why `onDispose` is being called. */
  datatype DisposeReason = Manual | Expired

  /** What each overridable hook of an item does when it is called. */
  datatype Hooks = Hooks(
    tick: Outcome<()>,
    onRegister: Outcome<()>,
    onDisposeManual: Outcome<bool>,
    onDisposeExpired: Outcome<bool>)
  {
    /** The outcome of `onDispose(reason)`. */
    function OnDispose(reason: DisposeReason): Outcome<bool>
    {
      match reason
      case Manual => onDisposeManual
      case Expired => onDisposeExpired
    }
  }

  /** The hooks a class inherits when it overrides none: `tick` and `onRegister`
      do nothing, `onDispose` agrees to removal for every reason. */
  const DefaultHooks := Hooks(Returns(()), Returns(()), Returns(true), Returns(true))

  lemma DefaultHooksNeverVeto(reason: DisposeReason)
    ensures DefaultHooks.OnDispose(reason) == Returns(true)
    ensures DefaultHooks.tick.Returns? && DefaultHooks.onRegister.Returns?
  {
  }

  /** The item's id field. In the source the field is a `long` that starts at -1
      while the cache is keyed by `String`; this model gives the field the key type
      of the cache, so that a registered item holds the very key it is stored
      under (what registration intends). `Unassigned` stands for the initial -1. */
  datatype ItemId = Unassigned | Assigned(key: string)

  datatype Cachable<S> = Cachable(
    timeCreated: Long,
    id: ItemId,
    life: Long,
    hooks: Hooks,
    state: S)
  {
    /** `getExpireTime()`: creation time plus lifetime, computed in 64-bit
        arithmetic, or `Long.MAX_VALUE` for a negative lifetime. */
    function ExpireTime(): (r: Long)
      ensures life >= 0 && timeCreated + life <= LONG_MAX ==> r == timeCreated + life
      ensures life >= 0 && timeCreated + life > LONG_MAX ==> r < timeCreated
      ensures life < 0 ==> r == LONG_MAX
    {
      if life >= 0 then WrapLong(timeCreated + life) else LONG_MAX
    }

    /** The test a cache tick pass applies at clock value `now`. */
    predicate IsExpired(now: Long)
    {
      ExpireTime() <= now
    }
  }

  /** An item with a negative lifetime is found expired only at the clock value
      `Long.MAX_VALUE` itself. */
  lemma NegativeLifeExpiresOnlyAtLongMax<S>(item: Cachable<S>, now: Long)
    requires item.life < 0
    ensures item.IsExpired(now) <==> now == LONG_MAX
  {
  }

  /** With a lifetime that does not overflow, an item is expired exactly from
      `timeCreated + life` on. */
  lemma FiniteLifeExpiry<S>(item: Cachable<S>, now: Long)
    requires 0 <= item.life && item.timeCreated + item.life <= LONG_MAX
    ensures item.IsExpired(now) <==> now >= item.timeCreated + item.life
  {
  }

  /** Expiry depends on the creation time and the lifetime only: the id (set at
      registration), the hooks and the subclass state do not affect it. */
  lemma ExpiryIgnoresIdHooksAndState<S>(a: Cachable<S>, b: Cachable<S>)
    requires a.timeCreated == b.timeCreated && a.life == b.life
    ensures a.ExpireTime() == b.ExpireTime()
  {
  }

  /** `new Cachable()` (through a subclass): lifetime -1, so it never expires. */
  function NewCachable<S>(now: Long, hooks: Hooks, state: S): (item: Cachable<S>)
    ensures item.id == Unassigned && item.timeCreated == now && item.life == -1
    ensures item.ExpireTime() == LONG_MAX
    ensures item.hooks == hooks && item.state == state
  {
    Cachable(now, Unassigned, -1, hooks, state)
  }

  /** `new Cachable(life)` (through a subclass). */
  function NewCachableWithLife<S>(now: Long, life: Long, hooks: Hooks, state: S): (item: Cachable<S>)
    ensures item.id == Unassigned && item.timeCreated == now && item.life == life
    ensures 0 <= life && now + life <= LONG_MAX ==> item.ExpireTime() == now + life
    ensures life < 0 ==> item.ExpireTime() == LONG_MAX
    ensures item.hooks == hooks && item.state == state
  {
    Cachable(now, Unassigned, life, hooks, state)
  }

  /** A lifetime of 0 makes the item expired at any clock value from its
      creation on. */
  lemma ZeroLifeExpiredFromCreation<S>(now: Long, hooks: Hooks, state: S, later: Long)
    requires later >= now
    ensures NewCachableWithLife(now, 0, hooks, state).IsExpired(later)
  {
  }
}

=== FILE: cached_object.dfy ===
/**
 `CachedObject<T>` (`CachedObject.java`): an item that carries one object and
 inherits every default hook. Its subclass state is the `object` field, which is
 `null` (`None`) unless the all-arguments constructor supplied it.
 */
module CachedObjects {
  import opened JavaLang
  import opened Cachables

  type CachedObject<T> = Cachable<Option<T>>

  /** An item built by one of `CachedObject`'s constructors. */
  predicate IsCachedObject<T>(item: CachedObject<T>)
  {
    item.hooks == DefaultHooks
  }

  /** `new CachedObject()`: no object, lifetime -1. */
  function NewEmpty<T>(now: Long): (item: CachedObject<T>)
    ensures IsCachedObject(item) && item.id == Unassigned && item.timeCreated == now
    ensures Get(item) == None
    ensures forall t: Long :: item.IsExpired(t) ==> t == LONG_MAX
  {
    NewCachable(now, DefaultHooks, None)
  }

  /** `new CachedObject(life)`: no object, the given lifetime. */
  function NewWithLife<T>(now: Long, life: Long): (item: CachedObject<T>)
    ensures IsCachedObject(item) && item.id == Unassigned && item.timeCreated == now
    ensures item.life == life
    ensures Get(item) == None
    ensures 0 <= life && now + life <= LONG_MAX ==> item.ExpireTime() == now + life
    ensures life < 0 ==> forall t: Long :: item.IsExpired(t) ==> t == LONG_MAX
  {
    NewCachableWithLife(now, life, DefaultHooks, None)
  }

  /** `new CachedObject(object)`, the generated all-arguments constructor: a
      `null` object is refused with a `NullPointerException`; otherwise the item
      holds the object and, with lifetime -1, never expires. */
  function NewWithObject<T>(now: Long, obj: Option<T>): (r: Outcome<CachedObject<T>>)
    ensures r.Returns? <==> obj.Some?
    ensures r.Throws? ==> r.thrown == NullPointer
    ensures r.Returns? ==> IsCachedObject(r.value) && r.value.id == Unassigned
    ensures r.Returns? ==> r.value.timeCreated == now && r.value.life == -1
    ensures r.Returns? ==> forall t: Long :: r.value.IsExpired(t) ==> t == LONG_MAX
  {
    match obj
    case None => Throws(NullPointer)
    case Some(_) => Returns(NewCachable(now, DefaultHooks, obj))
  }

  /** `get()`. */
  function Get<T>(item: CachedObject<T>): Option<T>
  {
    item.state
  }

  /** `get()` returns exactly the object handed to the all-arguments constructor. */
  lemma GetReturnsConstructedObject<T>(now: Long, o: T)
    ensures NewWithObject(now, Some(o)).Returns?
    ensures Get(NewWithObject(now, Some(o)).value) == Some(o)
  {
  }
}

=== FILE: java_lang.dfy ===
/**
 The few pieces of the Java language the WaterCache model needs: the fixed-width
 integer types with their two's-complement wrap-around, throwables (with the
 distinction `catch (Exception e)` draws), and the outcome of calling a method
 that may throw.
 */
module JavaLang {

  const LONG_MIN: int := -0x8000_0000_0000_0000
  const LONG_MAX: int := 0x7FFF_FFFF_FFFF_FFFF
  const INT_MIN: int := -0x8000_0000
  const INT_MAX: int := 0x7FFF_FFFF

  /** Java `long`. */
  type Long = x: int | LONG_MIN <= x <= LONG_MAX

  /** Java `int`. */
  type Int = x: int | INT_MIN <= x <= INT_MAX

  /** The value Java's `long` arithmetic produces for the mathematical result `x`. */
  function WrapLong(x: int): (r: Long)
    ensures LONG_MIN <= x <= LONG_MAX ==> r == x
    ensures LONG_MAX < x <= 2 * LONG_MAX + 1 ==> r == x - 0x1_0000_0000_0000_0000
  {
    (x - LONG_MIN) % 0x1_0000_0000_0000_0000 + LONG_MIN
  }

  /** The value Java's `int` arithmetic produces for the mathematical result `x`. */
  function WrapInt(x: int): (r: Int)
    ensures INT_MIN <= x <= INT_MAX ==> r == x
    ensures x == INT_MAX + 1 ==> r == INT_MIN
  {
    (x - INT_MIN) % 0x1_0000_0000 + INT_MIN
  }

  /** A thrown `java.lang.Throwable`: `catch (Exception e)` catches only the first kind. */
  datatype Throwable =
    | Exception(name: string)
    | Error(name: string)

  const NullPointer := Exception("java.lang.NullPointerException")
  const IllegalArgument := Exception("java.lang.IllegalArgumentException")

  /** The result of calling a Java method: it returns a value or throws. */
  datatype Outcome<+T> = Returns(value: T) | Throws(thrown: Throwable)
  {
    /** Runs a statement after this call: a throw propagates, a return is replaced by `a`. */
    function Then<A>(a: A): (r: Outcome<A>)
      ensures r.Returns? <==> Returns?
      ensures r.Returns? ==> r.value == a
      ensures Throws? ==> r.thrown == thrown
    {
      match this
      case Returns(_) => Returns(a)
      case Throws(t) => Throws(t)
    }
  }

  /** A Java reference that may be `null` (`None`). */
  datatype Option<+T> = None | Some(value: T)
}

=== FILE: water_cache.dfy ===
/**
 The key-to-item cache (`WaterCache.java`): registration, lookup, manual removal
 and the maintenance pass a tick performs over every item.

 Keys are the cache's `String` keys. A registered item's id is the key it was
 registered under (see `Cachables.ItemId`); the source's own mix of `String` keys
 and a `long` id field is modelled separately in `WaterCacheAsWritten`.

 Every operation returns the new cache, the log of what it did that callers can
 observe (the hooks it called and the reports it handed to the listener), and
 its Java outcome: a value, or a throwable that propagates to the caller.
 */
module WaterCache {
  import opened JavaLang
  import opened Cachables
  import CachedObjects

  datatype Event =
    | RegisterCalled(key: string)                          // item.onRegister(cache)
    | DisposeCalled(key: string, reason: DisposeReason)    // item.onDispose(reason)
    | TickCalled(key: string)                              // item.tick()
    | TickExceptionReported(key: string, cause: Throwable) // listener.onTickException(new TickException(cause))

  /** The mapping and whether a listener is set. */
  datatype Cache<S> = Cache(items: map<string, Cachable<S>>, hasListener: bool)

  datatype Step<S, A> = Step(cache: Cache<S>, log: seq<Event>, out: Outcome<A>)

  /** What `registerItem` leaves behind: the step, and the caller's own item
      object, whose id field registration has set. */
  datatype Registered<S> = Registered(step: Step<S, ()>, handle: Cachable<S>)

  /** Every item is stored under the id it holds. */
  ghost predicate WellKeyed<S>(c: Cache<S>)
  {
    forall k :: k in c.items ==> c.items[k].id == Assigned(k)
  }

  /** `new WaterCache()`. */
  function NewCache<S>(): (c: Cache<S>)
    ensures c.items == map[] && !c.hasListener
    ensures WellKeyed(c)
  {
    Cache(map[], false)
  }

  /** `setListener(listener)`; `present` is false for `null`. */
  function SetListener<S>(c: Cache<S>, present: bool): (r: Cache<S>)
    ensures r.items == c.items && r.hasListener == present
  {
    c.(hasListener := present)
  }

  /** `registerItem(key, item)`: give the item its id, store it (replacing any
      item under the same key, whose `onDispose` is not called), then call
      `onRegister`; a throw from that hook reaches the caller after the store.
      The caller's object is the stored one, so its handle carries the id too. */
  function RegisterItem<S>(c: Cache<S>, key: string, item: Cachable<S>): (r: Registered<S>)
    ensures r.handle.id == Assigned(key) && r.handle.(id := item.id) == item
    ensures GetItemById(r.step.cache, key) == Some(r.handle)
    ensures r.step.cache.items.Keys == c.items.Keys + {key}
    ensures forall k :: k in c.items && k != key ==> r.step.cache.items[k] == c.items[k]
    ensures r.step.log == [RegisterCalled(key)]
    ensures r.step.out == item.hooks.onRegister
    ensures r.step.cache.hasListener == c.hasListener
    ensures WellKeyed(c) ==> WellKeyed(r.step.cache)
  {
    var handle := item.(id := Assigned(key));
    Registered(Step(Cache(c.items[key := handle], c.hasListener), [RegisterCalled(key)], item.hooks.onRegister),
               handle)
  }

  /** `getItemById(key)`; `None` is Java's `null`. */
  function GetItemById<S>(c: Cache<S>, key: string): (r: Option<Cachable<S>>)
    ensures r.Some? <==> key in c.items
    ensures r.Some? ==> r.value == c.items[key]
  {
    if key in c.items then Some(c.items[key]) else None
  }

  /** `hasItemId(key)`. */
  function HasItemId<S>(c: Cache<S>, key: string): (r: bool)
    ensures r <==> GetItemById(c, key).Some?
  {
    key in c.items
  }

  /** `hasItem(item)`: looks the item's own id up; an unregistered item is absent. */
  function HasItem<S>(c: Cache<S>, item: Cachable<S>): (r: bool)
    ensures r <==> item.id.Assigned? && HasItemId(c, item.id.key)
  {
    match item.id
    case Unassigned => false
    case Assigned(k) => k in c.items
  }

  /** `removeItemById(key)`: a present item is removed whatever its
      `onDispose(MANUAL)` returns, and a throw from that hook reaches the caller
      after the removal; an absent key changes nothing and calls no hook. */
  function RemoveItemById<S>(c: Cache<S>, key: string): (r: Step<S, bool>)
    ensures key !in c.items ==> r == Step(c, [], Returns(false))
    ensures key in c.items ==> r.cache.items == c.items - {key}
    ensures key in c.items ==> r.log == [DisposeCalled(key, Manual)]
    ensures key in c.items ==> r.out == c.items[key].hooks.onDisposeManual.Then(true)
    ensures r.cache.hasListener == c.hasListener
    ensures WellKeyed(c) ==> WellKeyed(r.cache)
  {
    if key in c.items then
      Step(Cache(c.items - {key}, c.hasListener),
           [DisposeCalled(key, Manual)],
           c.items[key].hooks.onDisposeManual.Then(true))
    else
      Step(c, [], Returns(false))
  }

  /** `removeItem(item)`: removes whatever is stored under the item's id; the
      hook is called on the item passed in. */
  function RemoveItem<S>(c: Cache<S>, item: Cachable<S>): (r: Step<S, bool>)
    ensures !HasItem(c, item) ==> r == Step(c, [], Returns(false))
    ensures HasItem(c, item) ==> r.cache.items == c.items - {item.id.key}
    ensures HasItem(c, item) ==> r.log == [DisposeCalled(item.id.key, Manual)]
    ensures HasItem(c, item) ==> r.out == item.hooks.onDisposeManual.Then(true)
    ensures r.cache.hasListener == c.hasListener
    ensures WellKeyed(c) ==> WellKeyed(r.cache)
  {
    match item.id
    case Unassigned => Step(c, [], Returns(false))
    case Assigned(k) =>
      if k in c.items then
        Step(Cache(c.items - {k}, c.hasListener),
             [DisposeCalled(k, Manual)],
             item.hooks.onDisposeManual.Then(true))
      else
        Step(c, [], Returns(false))
  }

  /** Removing what was just registered under a fresh key restores the cache. */
  lemma RegisterThenRemoveRestores<S>(c: Cache<S>, key: string, item: Cachable<S>)
    requires key !in c.items
    ensures RemoveItemById(RegisterItem(c, key, item).step.cache, key).cache == c
    ensures RemoveItemById(RegisterItem(c, key, item).step.cache, key).out
      == item.hooks.onDisposeManual.Then(true)
  {
    var c1 := RegisterItem(c, key, item).step.cache;
    assert c1.items - {key} == c.items;
  }

  /** The caller's handle of a registered item finds it with `hasItem`, and
      `removeItem` on the handle removes it and calls the item's hook. */
  lemma RegisteredHandleIsFound<S>(c: Cache<S>, key: string, item: Cachable<S>)
    ensures HasItem(RegisterItem(c, key, item).step.cache, RegisterItem(c, key, item).handle)
    ensures key !in RemoveItem(RegisterItem(c, key, item).step.cache, RegisterItem(c, key, item).handle).cache.items
    ensures RemoveItem(RegisterItem(c, key, item).step.cache, RegisterItem(c, key, item).handle).out
      == item.hooks.onDisposeManual.Then(true)
  {
  }

  /** In a well-keyed cache, removing a stored item is removing its key. */
  lemma RemoveItemAgreesWithRemoveItemById<S>(c: Cache<S>, key: string)
    requires WellKeyed(c) && key in c.items
    ensures HasItem(c, c.items[key])
    ensures RemoveItem(c, c.items[key]) == RemoveItemById(c, key)
  {
  }

  // ---------------------------------------------------------------------------
  // The tick pass
  // ---------------------------------------------------------------------------

  /** What one visit of the pass leaves behind, and the throwable that escaped
      the `catch (Exception e)`, if any. */
  datatype Visit<S> = Visit(items: map<string, Cachable<S>>, log: seq<Event>, escaped: Option<Throwable>)

  /** `map.remove(item.getId())`. */
  function RemoveById<S>(items: map<string, Cachable<S>>, id: ItemId): map<string, Cachable<S>>
  {
    match id
    case Unassigned => items
    case Assigned(k) => items - {k}
  }

  /** The catch block: an `Exception` is reported to the listener, if one is
      set, and the pass goes on; any other throwable escapes the pass. */
  function Catch<S>(items: map<string, Cachable<S>>, log: seq<Event>, key: string,
                    t: Throwable, hasListener: bool): Visit<S>
  {
    if t.Exception? then
      Visit(items, log + (if hasListener then [TickExceptionReported(key, t)] else []), None)
    else
      Visit(items, log, Some(t))
  }

  /** The body of the pass's loop for the item found under `key`. */
  function VisitItem<S>(items: map<string, Cachable<S>>, key: string, item: Cachable<S>,
                        now: Long, hasListener: bool): Visit<S>
  {
    if item.IsExpired(now) then
      var log := [DisposeCalled(key, Expired)];
      match item.hooks.onDisposeExpired
      case Returns(remove) => Visit(if remove then RemoveById(items, item.id) else items, log, None)
      case Throws(t) => Catch(items, log, key, t, hasListener)
    else
      var log := [TickCalled(key)];
      match item.hooks.tick
      case Returns(_) => Visit(items, log, None)
      case Throws(t) => Catch(items, log, key, t, hasListener)
  }

  /** The loop over the keys still to visit; items are taken from the snapshot
      made when the pass began. */
  function Pass<S>(items: map<string, Cachable<S>>, snapshot: map<string, Cachable<S>>,
                   keys: seq<string>, now: Long, hasListener: bool): Visit<S>
    requires forall k :: k in keys ==> k in snapshot
    decreases |keys|
  {
    if keys == [] then
      Visit(items, [], None)
    else
      var v := VisitItem(items, keys[0], snapshot[keys[0]], now, hasListener);
      if v.escaped.Some? then
        v
      else
        var rest := Pass(v.items, snapshot, keys[1..], now, hasListener);
        Visit(rest.items, v.log + rest.log, rest.escaped)
  }

  /** `keys` lists every key of `m` once, in some order. */
  ghost predicate Enumerates<V>(keys: seq<string>, m: map<string, V>)
  {
    && (forall i, j :: 0 <= i < j < |keys| ==> keys[i] != keys[j])
    && (forall k :: k in m <==> k in keys)
  }

  /** `tick()` at clock value `now`, visiting the items in the order `keys`
      (the mapping's iteration order, which the source leaves unspecified). */
  function Tick<S>(c: Cache<S>, keys: seq<string>, now: Long): (r: Step<S, ()>)
    requires Enumerates(keys, c.items)
    ensures r.cache.hasListener == c.hasListener
    ensures r.out.Throws? ==> r.out.thrown.Error?
    ensures forall k :: k in r.cache.items ==> k in c.items && r.cache.items[k] == c.items[k]
    ensures WellKeyed(c) ==> WellKeyed(r.cache)
  {
    PassEscapesOnlyErrors(c.items, c.items, keys, now, c.hasListener);
    PassOnlyRemoves(c.items, c.items, keys, now, c.hasListener);
    var v := Pass(c.items, c.items, keys, now, c.hasListener);
    Step(Cache(v.items, c.hasListener), v.log,
         match v.escaped case None => Returns(()) case Some(t) => Throws(t))
  }

  // ---------------------------------------------------------------------------
  // What a pass should do to each item, stated independently of the loop
  // ---------------------------------------------------------------------------

  /** The hook call a pass makes on `item` (stored under `key`). */
  function HookEvent<S>(key: string, item: Cachable<S>, now: Long): Event
  {
    if item.IsExpired(now) then DisposeCalled(key, Expired) else TickCalled(key)
  }

  /** What that hook call throws, if anything. */
  function HookThrown<S>(item: Cachable<S>, now: Long): Option<Throwable>
  {
    var out := if item.IsExpired(now) then item.hooks.onDisposeExpired.Then(()) else item.hooks.tick;
    match out
    case Returns(_) => None
    case Throws(t) => Some(t)
  }

  /** The hook call throws an `Exception` (which the pass catches). */
  predicate FailsWithException<S>(item: Cachable<S>, now: Long)
  {
    HookThrown(item, now).Some? && HookThrown(item, now).value.Exception?
  }

  /** The hook call throws something that is not an `Exception`. */
  predicate FailsWithError<S>(item: Cachable<S>, now: Long)
  {
    HookThrown(item, now).Some? && HookThrown(item, now).value.Error?
  }

  /** The item is expired and its `onDispose(EXPIRED)` consents to removal. */
  predicate Disposes<S>(item: Cachable<S>, now: Long)
  {
    item.IsExpired(now) && item.hooks.onDisposeExpired == Returns(true)
  }

  ghost predicate NoErrors<S>(snapshot: map<string, Cachable<S>>, keys: seq<string>, now: Long)
  {
    forall k :: k in keys && k in snapshot ==> !FailsWithError(snapshot[k], now)
  }

  /** The keys among `keys` whose item consents to removal. */
  ghost function DisposedKeys<S>(snapshot: map<string, Cachable<S>>, keys: seq<string>, now: Long): set<string>
  {
    set k | k in keys && k in snapshot && Disposes(snapshot[k], now)
  }

  /** The hook calls a pass over `keys` makes, one per key, in order. */
  function ExpectedHookCalls<S>(snapshot: map<string, Cachable<S>>, keys: seq<string>, now: Long): seq<Event>
    requires forall k :: k in keys ==> k in snapshot
  {
    if keys == [] then []
    else [HookEvent(keys[0], snapshot[keys[0]], now)] + ExpectedHookCalls(snapshot, keys[1..], now)
  }

  /** The listener reports a pass over `keys` should make: in order, each key
      whose hook call throws an `Exception`, paired with that exception. */
  function ExpectedReports<S>(snapshot: map<string, Cachable<S>>, keys: seq<string>, now: Long)
    : seq<(string, Throwable)>
    requires forall k :: k in keys ==> k in snapshot
  {
    if keys == [] then []
    else (if FailsWithException(snapshot[keys[0]], now)
          then [(keys[0], HookThrown(snapshot[keys[0]], now).value)] else [])
         + ExpectedReports(snapshot, keys[1..], now)
  }

  /** What the pass should log for one item: its hook call, then, when that
      throws an `Exception` and a listener is set, the report of it. */
  function ItemLog<S>(key: string, item: Cachable<S>, now: Long, hasListener: bool): seq<Event>
  {
    [HookEvent(key, item, now)]
    + (if hasListener && FailsWithException(item, now)
       then [TickExceptionReported(key, HookThrown(item, now).value)] else [])
  }

  /** What a pass over `keys` should log: each item's log, in order. */
  function ExpectedLog<S>(snapshot: map<string, Cachable<S>>, keys: seq<string>, now: Long,
                          hasListener: bool): seq<Event>
    requires forall k :: k in keys ==> k in snapshot
  {
    if keys == [] then []
    else ItemLog(keys[0], snapshot[keys[0]], now, hasListener)
         + ExpectedLog(snapshot, keys[1..], now, hasListener)
  }

  /** The hook calls in a log (everything but listener reports). */
  function HookCalls(log: seq<Event>): seq<Event>
  {
    if log == [] then []
    else (if log[0].TickExceptionReported? then [] else [log[0]]) + HookCalls(log[1..])
  }

  /** The listener reports in a log, in order: the key and the throwable passed. */
  function Reports(log: seq<Event>): seq<(string, Throwable)>
  {
    if log == [] then []
    else (if log[0].TickExceptionReported? then [(log[0].key, log[0].cause)] else [])
         + Reports(log[1..])
  }

  lemma {:induction false} HookCallsDistribute(a: seq<Event>, b: seq<Event>)
    ensures HookCalls(a + b) == HookCalls(a) + HookCalls(b)
  {
    if a == [] {
      assert a + b == b;
    } else {
      assert (a + b)[0] == a[0];
      assert (a + b)[1..] == a[1..] + b;
      HookCallsDistribute(a[1..], b);
    }
  }

  lemma {:induction false} ReportsDistribute(a: seq<Event>, b: seq<Event>)
    ensures Reports(a + b) == Reports(a) + Reports(b)
  {
    if a == [] {
      assert a + b == b;
    } else {
      assert (a + b)[0] == a[0];
      assert (a + b)[1..] == a[1..] + b;
      ReportsDistribute(a[1..], b);
    }
  }

  /** One visit: the item's single hook call and its report. */
  lemma VisitItemLog<S>(items: map<string, Cachable<S>>, key: string, item: Cachable<S>,
                        now: Long, hasListener: bool)
    ensures HookCalls(VisitItem(items, key, item, now, hasListener).log) == [HookEvent(key, item, now)]
    ensures Reports(VisitItem(items, key, item, now, hasListener).log)
         == (if hasListener && FailsWithException(item, now)
             then [(key, HookThrown(item, now).value)] else [])
    ensures VisitItem(items, key, item, now, hasListener).escaped.Some? <==> FailsWithError(item, now)
    ensures VisitItem(items, key, item, now, hasListener).escaped.Some? ==>
      VisitItem(items, key, item, now, hasListener).escaped == HookThrown(item, now)
    ensures VisitItem(items, key, item, now, hasListener).log == ItemLog(key, item, now, hasListener)
  {
    var v := VisitItem(items, key, item, now, hasListener);
    var e := HookEvent(key, item, now);
    if FailsWithException(item, now) && hasListener {
      var report := TickExceptionReported(key, HookThrown(item, now).value);
      assert v.log == [e] + [report];
      HookCallsDistribute([e], [report]);
      ReportsDistribute([e], [report]);
    } else {
      assert v.log == [e];
    }
  }

  /** One visit removes the item exactly when it consents to removal. */
  lemma VisitItemItems<S>(items: map<string, Cachable<S>>, key: string, item: Cachable<S>,
                          now: Long, hasListener: bool)
    requires item.id == Assigned(key)
    requires !FailsWithError(item, now)
    ensures VisitItem(items, key, item, now, hasListener).items
         == items - (if Disposes(item, now) then {key} else {})
  {
    if !Disposes(item, now) {
      assert items - {} == items;
    }
  }

  lemma {:induction false} PassEscapesOnlyErrors<S>(items: map<string, Cachable<S>>,
      snapshot: map<string, Cachable<S>>, keys: seq<string>, now: Long, hasListener: bool)
    requires forall k :: k in keys ==> k in snapshot
    ensures var v := Pass(items, snapshot, keys, now, hasListener);
      v.escaped.Some? ==> v.escaped.value.Error?
    decreases |keys|
  {
    if keys != [] {
      var v := VisitItem(items, keys[0], snapshot[keys[0]], now, hasListener);
      if v.escaped.None? {
        PassEscapesOnlyErrors(v.items, snapshot, keys[1..], now, hasListener);
      }
    }
  }

  /** A pass only removes: every key it keeps still maps to the item it had. */
  lemma {:induction false} PassOnlyRemoves<S>(items: map<string, Cachable<S>>,
      snapshot: map<string, Cachable<S>>, keys: seq<string>, now: Long, hasListener: bool)
    requires forall k :: k in keys ==> k in snapshot
    ensures forall k :: k in Pass(items, snapshot, keys, now, hasListener).items ==>
      k in items && Pass(items, snapshot, keys, now, hasListener).items[k] == items[k]
    decreases |keys|
  {
    if keys != [] {
      var v := VisitItem(items, keys[0], snapshot[keys[0]], now, hasListener);
      assert forall k :: k in v.items ==> k in items && v.items[k] == items[k];
      if v.escaped.None? {
        assert forall x :: x in keys[1..] ==> x in keys;
        PassOnlyRemoves(v.items, snapshot, keys[1..], now, hasListener);
      }
    }
  }

  /** With no `Error` thrown, a pass completes, calls one hook per key in order
      and, when a listener is set, reports each failing key with its exception. */
  lemma {:induction false} PassLog<S>(items: map<string, Cachable<S>>,
      snapshot: map<string, Cachable<S>>, keys: seq<string>, now: Long, hasListener: bool)
    requires forall k :: k in keys ==> k in snapshot
    requires NoErrors(snapshot, keys, now)
    ensures var v := Pass(items, snapshot, keys, now, hasListener);
      && v.escaped.None?
      && HookCalls(v.log) == ExpectedHookCalls(snapshot, keys, now)
      && Reports(v.log) == (if hasListener then ExpectedReports(snapshot, keys, now) else [])
    decreases |keys|
  {
    if keys != [] {
      var k := keys[0];
      var v := VisitItem(items, k, snapshot[k], now, hasListener);
      VisitItemLog(items, k, snapshot[k], now, hasListener);
      assert forall x :: x in keys[1..] ==> x in keys;
      PassLog(v.items, snapshot, keys[1..], now, hasListener);
      var rest := Pass(v.items, snapshot, keys[1..], now, hasListener);
      HookCallsDistribute(v.log, rest.log);
      ReportsDistribute(v.log, rest.log);
    }
  }

  /** With no `Error` thrown, the pass's log is the expected one: each report
      comes right after the hook call that threw, before the next item. */
  lemma {:induction false} PassLogInOrder<S>(items: map<string, Cachable<S>>,
      snapshot: map<string, Cachable<S>>, keys: seq<string>, now: Long, hasListener: bool)
    requires forall k :: k in keys ==> k in snapshot
    requires NoErrors(snapshot, keys, now)
    ensures Pass(items, snapshot, keys, now, hasListener).log == ExpectedLog(snapshot, keys, now, hasListener)
    decreases |keys|
  {
    if keys != [] {
      var k := keys[0];
      var v := VisitItem(items, k, snapshot[k], now, hasListener);
      VisitItemLog(items, k, snapshot[k], now, hasListener);
      assert forall x :: x in keys[1..] ==> x in keys;
      PassLogInOrder(v.items, snapshot, keys[1..], now, hasListener);
    }
  }

  /** With no `Error` thrown, a pass removes exactly the items that consent to
      removal. */
  lemma {:induction false} PassItems<S>(items: map<string, Cachable<S>>,
      snapshot: map<string, Cachable<S>>, keys: seq<string>, now: Long, hasListener: bool)
    requires forall k :: k in keys ==> k in snapshot && snapshot[k].id == Assigned(k)
    requires NoErrors(snapshot, keys, now)
    ensures Pass(items, snapshot, keys, now, hasListener).items
         == items - DisposedKeys(snapshot, keys, now)
    decreases |keys|
  {
    if keys == [] {
      assert DisposedKeys(snapshot, keys, now) == {};
      assert items - {} == items;
    } else {
      var k := keys[0];
      var v := VisitItem(items, k, snapshot[k], now, hasListener);
      VisitItemLog(items, k, snapshot[k], now, hasListener);
      VisitItemItems(items, k, snapshot[k], now, hasListener);
      assert forall x :: x in keys[1..] ==> x in keys;
      PassItems(v.items, snapshot, keys[1..], now, hasListener);
      DisposedKeysCons(snapshot, keys, now);
      MapMinusMinus(items, if Disposes(snapshot[k], now) then {k} else {},
                    DisposedKeys(snapshot, keys[1..], now));
    }
  }

  lemma DisposedKeysCons<S>(snapshot: map<string, Cachable<S>>, keys: seq<string>, now: Long)
    requires keys != [] && keys[0] in snapshot
    ensures DisposedKeys(snapshot, keys, now)
         == (if Disposes(snapshot[keys[0]], now) then {keys[0]} else {})
            + DisposedKeys(snapshot, keys[1..], now)
  {
    assert forall x :: x in keys <==> x == keys[0] || x in keys[1..];
  }

  lemma MapMinusMinus<K, V>(m: map<K, V>, a: set<K>, b: set<K>)
    ensures (m - a) - b == m - (a + b)
  {
  }

  /** The first item whose hook throws an `Error` ends the pass: its throwable
      escapes. */
  lemma {:induction false} PassStopsAtError<S>(items: map<string, Cachable<S>>,
      snapshot: map<string, Cachable<S>>, keys: seq<string>, now: Long, hasListener: bool, i: nat)
    requires forall k :: k in keys ==> k in snapshot
    requires i < |keys|
    requires forall j :: 0 <= j < i ==> !FailsWithError(snapshot[keys[j]], now)
    requires FailsWithError(snapshot[keys[i]], now)
    ensures Pass(items, snapshot, keys, now, hasListener).escaped == HookThrown(snapshot[keys[i]], now)
    decreases i
  {
    var k := keys[0];
    var v := VisitItem(items, k, snapshot[k], now, hasListener);
    VisitItemLog(items, k, snapshot[k], now, hasListener);
    if i > 0 {
      assert forall x :: x in keys[1..] ==> x in keys;
      PassStopsAtError(v.items, snapshot, keys[1..], now, hasListener, i - 1);
    }
  }

  /** ... and no item after it is visited: the hook calls are those of the
      items up to and including it. */
  lemma {:induction false} PassHookCallsUntilError<S>(items: map<string, Cachable<S>>,
      snapshot: map<string, Cachable<S>>, keys: seq<string>, now: Long, hasListener: bool, i: nat)
    requires forall k :: k in keys ==> k in snapshot
    requires i < |keys|
    requires forall j :: 0 <= j < i ==> !FailsWithError(snapshot[keys[j]], now)
    requires FailsWithError(snapshot[keys[i]], now)
    ensures HookCalls(Pass(items, snapshot, keys, now, hasListener).log)
         == ExpectedHookCalls(snapshot, keys[..i + 1], now)
    decreases i
  {
    var k := keys[0];
    var v := VisitItem(items, k, snapshot[k], now, hasListener);
    var first := [HookEvent(k, snapshot[k], now)];
    assert HookCalls(v.log) == first && (v.escaped.Some? <==> i == 0) by {
      VisitItemLog(items, k, snapshot[k], now, hasListener);
    }
    assert ExpectedHookCalls(snapshot, keys[..i + 1], now)
        == first + ExpectedHookCalls(snapshot, keys[1..][..i], now) by {
      ExpectedHookCallsPrefix(snapshot, keys, i, now);
    }
    if i == 0 {
      assert ExpectedHookCalls(snapshot, keys[1..][..0], now) == [];
    } else {
      var tail := keys[1..];
      var rest := Pass(v.items, snapshot, tail, now, hasListener);
      assert HookCalls(rest.log) == ExpectedHookCalls(snapshot, tail[..i], now) by {
        assert forall x :: x in tail ==> x in keys;
        PassHookCallsUntilError(v.items, snapshot, tail, now, hasListener, i - 1);
        assert tail[..i - 1 + 1] == tail[..i];
      }
      HookCallsDistribute(v.log, rest.log);
    }
  }

  /** ... and its log is that of the items before it, followed by the failing
      hook call, with no report for it. */
  lemma {:induction false} PassLogUntilError<S>(items: map<string, Cachable<S>>,
      snapshot: map<string, Cachable<S>>, keys: seq<string>, now: Long, hasListener: bool, i: nat)
    requires forall k :: k in keys ==> k in snapshot
    requires i < |keys|
    requires forall j :: 0 <= j < i ==> !FailsWithError(snapshot[keys[j]], now)
    requires FailsWithError(snapshot[keys[i]], now)
    ensures Pass(items, snapshot, keys, now, hasListener).log
         == ExpectedLog(snapshot, keys[..i], now, hasListener) + [HookEvent(keys[i], snapshot[keys[i]], now)]
    decreases i
  {
    var k := keys[0];
    var v := VisitItem(items, k, snapshot[k], now, hasListener);
    var failing := [HookEvent(keys[i], snapshot[keys[i]], now)];
    if i == 0 {
      assert v.escaped.Some? && v.log == failing by {
        VisitItemLog(items, k, snapshot[k], now, hasListener);
      }
      assert ExpectedLog(snapshot, keys[..i], now, hasListener) == [];
    } else {
      var tail := keys[1..];
      var first := ItemLog(k, snapshot[k], now, hasListener);
      var before := ExpectedLog(snapshot, tail[..i - 1], now, hasListener);
      assert v.escaped.None? && v.log == first by {
        VisitItemLog(items, k, snapshot[k], now, hasListener);
      }
      assert Pass(v.items, snapshot, tail, now, hasListener).log == before + failing by {
        assert forall x :: x in tail ==> x in keys;
        assert tail[i - 1] == keys[i];
        PassLogUntilError(v.items, snapshot, tail, now, hasListener, i - 1);
      }
      assert ExpectedLog(snapshot, keys[..i], now, hasListener) == first + before by {
        ExpectedLogPrefix(snapshot, keys, i, now, hasListener);
      }
      assert first + (before + failing) == (first + before) + failing;
    }
  }

  /** The expected log of the first `i` keys starts with the first key's. */
  lemma ExpectedLogPrefix<S>(snapshot: map<string, Cachable<S>>, keys: seq<string>, i: nat,
                             now: Long, hasListener: bool)
    requires forall k :: k in keys ==> k in snapshot
    requires 0 < i <= |keys|
    ensures forall k :: k in keys[1..][..i - 1] ==> k in snapshot
    ensures ExpectedLog(snapshot, keys[..i], now, hasListener)
         == ItemLog(keys[0], snapshot[keys[0]], now, hasListener)
            + ExpectedLog(snapshot, keys[1..][..i - 1], now, hasListener)
  {
    assert keys[..i][1..] == keys[1..][..i - 1];
    assert forall k :: k in keys[..i] ==> k in keys;
    assert forall k :: k in keys[1..][..i - 1] ==> k in keys;
  }

  /** A pass ended by an `Error` at the `i`-th key has removed exactly the
      consenting items among the keys before it. */
  lemma {:induction false} PassStopsAtErrorItems<S>(items: map<string, Cachable<S>>,
      snapshot: map<string, Cachable<S>>, keys: seq<string>, now: Long, hasListener: bool, i: nat)
    requires forall k :: k in keys ==> k in snapshot && snapshot[k].id == Assigned(k)
    requires i < |keys|
    requires forall j :: 0 <= j < i ==> !FailsWithError(snapshot[keys[j]], now)
    requires FailsWithError(snapshot[keys[i]], now)
    ensures Pass(items, snapshot, keys, now, hasListener).items == items - DisposedKeys(snapshot, keys[..i], now)
    decreases i
  {
    var k := keys[0];
    var v := VisitItem(items, k, snapshot[k], now, hasListener);
    if i == 0 {
      assert v.escaped.Some? by {
        VisitItemLog(items, k, snapshot[k], now, hasListener);
      }
      assert DisposedKeys(snapshot, keys[..i], now) == {};
      assert items - {} == items;
    } else {
      var first := if Disposes(snapshot[k], now) then {k} else {};
      var later := DisposedKeys(snapshot, keys[1..][..i - 1], now);
      assert v.escaped.None? && v.items == items - first by {
        VisitItemLog(items, k, snapshot[k], now, hasListener);
        VisitItemItems(items, k, snapshot[k], now, hasListener);
      }
      assert Pass(v.items, snapshot, keys[1..], now, hasListener).items == v.items - later by {
        assert forall x :: x in keys[1..] ==> x in keys;
        PassStopsAtErrorItems(v.items, snapshot, keys[1..], now, hasListener, i - 1);
      }
      assert DisposedKeys(snapshot, keys[..i], now) == first + later by {
        assert keys[..i][1..] == keys[1..][..i - 1];
        DisposedKeysCons(snapshot, keys[..i], now);
      }
      MapMinusMinus(items, first, later);
    }
  }

  /** Every listed key's hook call is among the expected ones. */
  lemma {:induction false} HookEventListed<S>(snapshot: map<string, Cachable<S>>, keys: seq<string>,
                                              now: Long, key: string)
    requires forall k :: k in keys ==> k in snapshot
    requires key in keys
    ensures HookEvent(key, snapshot[key], now) in ExpectedHookCalls(snapshot, keys, now)
    decreases |keys|
  {
    if keys[0] != key {
      assert forall x :: x in keys[1..] ==> x in keys;
      assert key in keys[1..] by {
        var j :| 0 <= j < |keys| && keys[j] == key;
        assert keys[1..][j - 1] == key;
      }
      HookEventListed(snapshot, keys[1..], now, key);
    }
  }

  /** The hook calls over the first `m` keys start with the first key's. */
  lemma ExpectedHookCallsPrefix<S>(snapshot: map<string, Cachable<S>>, keys: seq<string>, i: nat, now: Long)
    requires forall k :: k in keys ==> k in snapshot
    requires i < |keys|
    ensures forall k :: k in keys[1..][..i] ==> k in snapshot
    ensures ExpectedHookCalls(snapshot, keys[..i + 1], now)
         == [HookEvent(keys[0], snapshot[keys[0]], now)] + ExpectedHookCalls(snapshot, keys[1..][..i], now)
  {
    assert keys[..i + 1][1..] == keys[1..][..i];
    assert forall k :: k in keys[..i + 1] ==> k in keys;
    assert forall k :: k in keys[1..][..i] ==> k in keys;
  }

  // ---------------------------------------------------------------------------
  // Properties of a tick
  // ---------------------------------------------------------------------------

  /** A tick in which no hook throws an `Error` removes exactly the expired items
      whose `onDispose(EXPIRED)` returns true, and leaves every other item as it
      was; it completes normally. */
  lemma TickRemovesExactlyConsentingExpired<S>(c: Cache<S>, keys: seq<string>, now: Long)
    requires WellKeyed(c) && Enumerates(keys, c.items)
    requires NoErrors(c.items, keys, now)
    ensures var r := Tick(c, keys, now);
      && r.out == Returns(())
      && r.cache.items.Keys == set k | k in c.items && !Disposes(c.items[k], now)
      && (forall k :: k in r.cache.items ==> k in c.items && r.cache.items[k] == c.items[k])
      && WellKeyed(r.cache)
  {
    PassLog(c.items, c.items, keys, now, c.hasListener);
    PassItems(c.items, c.items, keys, now, c.hasListener);
  }

  /** A failing item does not stop the pass: with no `Error` thrown, every item's
      hook is called exactly once, in iteration order (`onDispose(EXPIRED)` when
      expired, `tick()` otherwise), and the listener, when set, gets exactly one
      report per item whose hook threw, in the same order and with the exception
      that hook threw; with no listener nothing is reported. */
  lemma TickCallsEveryHookAndReportsEachFailureOnce<S>(c: Cache<S>, keys: seq<string>, now: Long)
    requires Enumerates(keys, c.items)
    requires NoErrors(c.items, keys, now)
    ensures var r := Tick(c, keys, now);
      && HookCalls(r.log) == ExpectedHookCalls(c.items, keys, now)
      && Reports(r.log) == (if c.hasListener then ExpectedReports(c.items, keys, now) else [])
    ensures Tick(c, keys, now).log == ExpectedLog(c.items, keys, now, c.hasListener)
  {
    PassLog(c.items, c.items, keys, now, c.hasListener);
    PassLogInOrder(c.items, c.items, keys, now, c.hasListener);
  }

  /** A throwable that is not an `Exception` escapes `tick()` from the first item
      that throws one, and the items after it are not visited; the consenting
      expired items before it are already removed, and the cache stays well
      keyed for the next tick. */
  lemma TickAbortsOnError<S>(c: Cache<S>, keys: seq<string>, now: Long, i: nat)
    requires WellKeyed(c) && Enumerates(keys, c.items)
    requires i < |keys|
    requires forall j :: 0 <= j < i ==> !FailsWithError(c.items[keys[j]], now)
    requires FailsWithError(c.items[keys[i]], now)
    ensures var r := Tick(c, keys, now);
      && r.out == Throws(HookThrown(c.items[keys[i]], now).value)
      && HookCalls(r.log) == ExpectedHookCalls(c.items, keys[..i + 1], now)
      && r.cache.items == c.items - DisposedKeys(c.items, keys[..i], now)
      && WellKeyed(r.cache)
    ensures Tick(c, keys, now).log
         == ExpectedLog(c.items, keys[..i], now, c.hasListener) + [HookEvent(keys[i], c.items[keys[i]], now)]
  {
    PassStopsAtError(c.items, c.items, keys, now, c.hasListener, i);
    PassLogUntilError(c.items, c.items, keys, now, c.hasListener, i);
    PassHookCallsUntilError(c.items, c.items, keys, now, c.hasListener, i);
    PassStopsAtErrorItems(c.items, c.items, keys, now, c.hasListener, i);
  }

  /** An expired item that keeps the default `onDispose` (a `CachedObject`, for
      one) is gone after the tick. */
  lemma ExpiredDefaultItemIsRemoved<S>(c: Cache<S>, keys: seq<string>, now: Long, key: string)
    requires WellKeyed(c) && Enumerates(keys, c.items)
    requires NoErrors(c.items, keys, now)
    requires key in c.items && c.items[key].hooks == DefaultHooks && c.items[key].IsExpired(now)
    ensures key !in Tick(c, keys, now).cache.items
  {
    TickRemovesExactlyConsentingExpired(c, keys, now);
  }

  /** An expired item whose `onDispose(EXPIRED)` returns false stays, unchanged,
      after a tick that called its `onDispose(EXPIRED)`; the next tick, at any
      later clock value, visits it again and calls `onDispose(EXPIRED)` again. */
  lemma VetoingItemStaysForNextTick<S>(c: Cache<S>, keys: seq<string>, now: Long, key: string,
                                       nextKeys: seq<string>, later: Long)
    requires WellKeyed(c) && Enumerates(keys, c.items)
    requires NoErrors(c.items, keys, now)
    requires key in c.items && c.items[key].IsExpired(now)
    requires c.items[key].hooks.onDisposeExpired == Returns(false)
    requires Enumerates(nextKeys, Tick(c, keys, now).cache.items) && later >= now
    ensures key in nextKeys
    ensures Tick(c, keys, now).cache.items[key] == c.items[key]
    ensures DisposeCalled(key, Expired) in HookCalls(Tick(c, keys, now).log)
    ensures var next := Tick(c, keys, now).cache;
      NoErrors(next.items, nextKeys, later) ==>
        DisposeCalled(key, Expired) in HookCalls(Tick(next, nextKeys, later).log)
  {
    TickRemovesExactlyConsentingExpired(c, keys, now);
    TickCallsEveryHookAndReportsEachFailureOnce(c, keys, now);
    HookEventListed(c.items, keys, now, key);
    var next := Tick(c, keys, now).cache;
    if NoErrors(next.items, nextKeys, later) {
      TickCallsEveryHookAndReportsEachFailureOnce(next, nextKeys, later);
      HookEventListed(next.items, nextKeys, later, key);
    }
  }

  /** An item that is not expired stays after the tick, which calls its `tick()`. */
  lemma LiveItemIsTickedAndKept<S>(c: Cache<S>, keys: seq<string>, now: Long, key: string)
    requires WellKeyed(c) && Enumerates(keys, c.items)
    requires NoErrors(c.items, keys, now)
    requires key in c.items && !c.items[key].IsExpired(now)
    ensures key in Tick(c, keys, now).cache.items
    ensures Tick(c, keys, now).cache.items[key] == c.items[key]
    ensures TickCalled(key) in HookCalls(Tick(c, keys, now).log)
  {
    TickRemovesExactlyConsentingExpired(c, keys, now);
    TickCallsEveryHookAndReportsEachFailureOnce(c, keys, now);
    HookEventListed(c.items, keys, now, key);
  }

  /** The cache never changes the object a `CachedObject` carries: `get()` on the
      item registered under a key returns the object registered, and `get()` on
      every item a tick keeps returns what it returned before the tick. */
  lemma CachedObjectKeepsItsObject<T>(c: Cache<Option<T>>, key: string, item: CachedObjects.CachedObject<T>,
                                      keys: seq<string>, now: Long)
    ensures var found := GetItemById(RegisterItem(c, key, item).step.cache, key);
      found.Some? && CachedObjects.Get(found.value) == CachedObjects.Get(item)
    ensures Enumerates(keys, c.items) ==>
      forall k :: k in Tick(c, keys, now).cache.items ==>
        CachedObjects.Get(Tick(c, keys, now).cache.items[k]) == CachedObjects.Get(c.items[k])
  {
  }
}

=== FILE: water_cache_as_written.dfy ===
/**
 The cache's keying exactly as the source writes it. The mapping is keyed by
 `String` while `Cachable.id` is a `long`:
 - registration stores the `String` key into the `long` field through
   reflection; `Field.set` only accepts a value that unwraps to `long`, so the
   call throws `IllegalArgumentException` before anything is stored;
 - `hasItem`, `removeItem` and the tick pass look an item up by its `long` id,
   boxed as a `Long`, which is never equal to a `String` key.
 The rest of the model (`WaterCache`) uses the keying registration intends.
 */
module WaterCacheAsWritten {
  import opened JavaLang
  import opened Cachables
  import opened WaterCache

  /** A value passed where a Java method takes an `Object`. */
  datatype JavaObject = JString(s: string) | JLong(n: Long)

  /** `Field.set(item, value)` on the `long` field `id`: the new field value. */
  function SetLongField(value: JavaObject): (r: Outcome<Long>)
    ensures r.Returns? <==> value.JLong?
    ensures r.Throws? ==> r.thrown == IllegalArgument
  {
    match value
    case JLong(n) => Returns(n)
    case JString(_) => Throws(IllegalArgument)
  }

  /** `registerItem(key, item)` as written: the reflective store of the key
      throws, so nothing is stored, no hook is called and the item's id stays
      as it was. */
  function RegisterItemAsWritten<S>(c: Cache<S>, key: string, item: Cachable<S>): (r: Registered<S>)
    ensures r.step == Step(c, [], Throws(IllegalArgument))
    ensures r.handle == item
  {
    match SetLongField(JString(key))
    case Throws(t) => Registered(Step(c, [], Throws(t)), item)
    case Returns(_) => RegisterItem(c, key, item)
  }

  /** Registering an item and asking for its key: the intended registration
      finds it, the written one does not. */
  lemma RegisterAsWrittenStoresNothing<S>(key: string, item: Cachable<S>)
    ensures !HasItemId(RegisterItemAsWritten(NewCache(), key, item).step.cache, key)
    ensures HasItemId(RegisterItem(NewCache(), key, item).step.cache, key)
  {
  }

  /** `containsKey(k)` on a map keyed by `String`: a `Long` equals no key. */
  function ContainsKey<S>(c: Cache<S>, k: JavaObject): (r: bool)
    ensures r ==> k.JString? && k.s in c.items
  {
    match k
    case JString(s) => s in c.items
    case JLong(_) => false
  }

  /** `hasItem(item)` as written, for an item whose `long` id is `id`. */
  function HasItemAsWritten<S>(c: Cache<S>, id: Long): (r: bool)
    ensures !r
  {
    ContainsKey(c, JLong(id))
  }

  /** `Map.remove(k)` on a map keyed by `String`, as `removeItem` and the tick
      pass call it with a boxed `Long`: the map after the call and whether a
      value was removed. */
  function MapRemove<S>(items: map<string, Cachable<S>>, k: JavaObject): (r: (map<string, Cachable<S>>, bool))
    ensures r.1 <==> k.JString? && k.s in items
    ensures k.JLong? ==> r.0 == items
  {
    match k
    case JString(s) => if s in items then (items - {s}, true) else (items, false)
    case JLong(_) => (items, false)
  }

  /** An item stored under the key "5" whose id field holds 5: the written
      lookup and removal miss it, the intended ones find and remove it. */
  lemma LookupByLongIdMissesStoredItem<S>(item: Cachable<S>)
    requires item.id == Assigned("5")
    ensures var c := Cache(map["5" := item], false);
      && !HasItemAsWritten(c, 5) && MapRemove(c.items, JLong(5)).0 == c.items
      && HasItem(c, item) && "5" !in RemoveItem(c, item).cache.items
  {
  }
}

=== FILE: water_scheduler.dfy ===
/**
 The delayed-task scheduler (`WaterScheduler.java`): tasks are queued under ids
 taken from a counter, and each dispatch pass runs (synchronous mode) or hands
 to the provider (asynchronous mode) every task that is due, and returns the
 earliest deadline among the tasks that are not.

 The clock is the parameter `now`; the provider (a thread factory or an executor)
 is recorded as a hand-off event only.
 */
module WaterScheduler {
  import opened JavaLang

  /** A caller's `Runnable`: what its `run()` does. */
  datatype Runnable = Runnable(name: string, run: Outcome<()>)

  datatype Task = Task(runnable: Runnable, timeToRunAt: Long, id: Int)

  /** The execution provider supplied at construction. */
  datatype Provider = ThreadFactory | ExecutorService

  datatype Scheduler = Scheduler(queue: map<Int, Task>, provider: Option<Provider>, idCounter: Int)

  datatype Event =
    | HandedOff(id: Int)                    // provider.run(task)
    | Dequeued(id: Int)                     // taskQueue.remove(id), first thing Task.run does
    | Ran(id: Int)                          // the task's runnable.run()
    | Swallowed(id: Int, thrown: Throwable) // a throw from Task.run caught by the pass

  /** Every task is queued under its own id. */
  ghost predicate WellFormed(s: Scheduler)
  {
    forall k :: k in s.queue ==> s.queue[k].id == k
  }

  /** `isAsynchronousDispatch()`: a provider was supplied. */
  predicate IsAsynchronousDispatch(s: Scheduler)
  {
    s.provider.Some?
  }

  /** `new WaterScheduler()`: empty, synchronous, ids from 0. */
  function NewScheduler(): (s: Scheduler)
    ensures s.queue == map[] && s.idCounter == 0
    ensures !IsAsynchronousDispatch(s) && WellFormed(s)
  {
    Scheduler(map[], None, 0)
  }

  /** `new WaterScheduler(threadFactory)` / `new WaterScheduler(executorService)`. */
  function NewSchedulerWith(p: Provider): (s: Scheduler)
    ensures s.queue == map[] && s.idCounter == 0
    ensures IsAsynchronousDispatch(s) && WellFormed(s)
  {
    Scheduler(map[], Some(p), 0)
  }

  datatype Scheduled = Scheduled(scheduler: Scheduler, id: Int)

  /** `getNewId()`: hands out the counter, which then steps on in `int`
      arithmetic (from `Integer.MAX_VALUE` it wraps to `Integer.MIN_VALUE`). */
  function GetNewId(s: Scheduler): (r: Scheduled)
    ensures r.id == s.idCounter
    ensures r.scheduler.queue == s.queue && r.scheduler.provider == s.provider
    ensures s.idCounter < INT_MAX ==> r.scheduler.idCounter == r.id + 1
    ensures s.idCounter == INT_MAX ==> r.scheduler.idCounter == INT_MIN
  {
    Scheduled(s.(idCounter := WrapInt(s.idCounter + 1)), s.idCounter)
  }

  /** `runAt(runnable, timeToRunAt)`: queues a task under a new id. */
  function RunAt(s: Scheduler, runnable: Runnable, timeToRunAt: Long): (r: Scheduled)
    ensures r.id == s.idCounter
    ensures r.scheduler.queue.Keys == s.queue.Keys + {r.id}
    ensures r.scheduler.queue[r.id] == Task(runnable, timeToRunAt, r.id)
    ensures forall k :: k in s.queue && k != r.id ==> r.scheduler.queue[k] == s.queue[k]
    ensures r.scheduler.provider == s.provider
    ensures s.idCounter < INT_MAX ==> r.scheduler.idCounter == s.idCounter + 1
    ensures WellFormed(s) ==> WellFormed(r.scheduler)
  {
    var n := GetNewId(s);
    Scheduled(n.scheduler.(queue := n.scheduler.queue[n.id := Task(runnable, timeToRunAt, n.id)]), n.id)
  }

  /** `runAfter(runnable, millis)` at clock value `now`: the deadline is
      `now + millis` in `long` arithmetic. */
  function RunAfter(s: Scheduler, runnable: Runnable, millis: Long, now: Long): (r: Scheduled)
    ensures r.id == s.idCounter && r.id in r.scheduler.queue
    ensures LONG_MIN <= now + millis <= LONG_MAX ==> r.scheduler.queue[r.id].timeToRunAt == now + millis
    ensures r.scheduler.queue[r.id].runnable == runnable
    ensures r.scheduler.queue.Keys == s.queue.Keys + {r.id} && r.scheduler.queue[r.id].id == r.id
    ensures forall k :: k in s.queue && k != r.id ==> r.scheduler.queue[k] == s.queue[k]
    ensures r.scheduler.provider == s.provider
    ensures s.idCounter < INT_MAX ==> r.scheduler.idCounter == s.idCounter + 1
    ensures WellFormed(s) ==> WellFormed(r.scheduler)
  {
    RunAt(s, runnable, WrapLong(now + millis))
  }

  /** `runAt` for each request in turn; the scheduler after them and the ids
      handed out. */
  function RunAll(s: Scheduler, requests: seq<(Runnable, Long)>): (r: (Scheduler, seq<Int>))
    ensures |r.1| == |requests|
    decreases |requests|
  {
    if requests == [] then (s, [])
    else
      var a := RunAt(s, requests[0].0, requests[0].1);
      var rest := RunAll(a.scheduler, requests[1..]);
      (rest.0, [a.id] + rest.1)
  }

  /** Until the counter wraps, the ids handed out are consecutive. */
  lemma {:induction false} RunAllIdsConsecutive(s: Scheduler, requests: seq<(Runnable, Long)>)
    requires s.idCounter + |requests| <= INT_MAX + 1
    ensures forall i :: 0 <= i < |requests| ==> RunAll(s, requests).1[i] == s.idCounter + i
    decreases |requests|
  {
    if requests != [] {
      var a := RunAt(s, requests[0].0, requests[0].1);
      if |requests| > 1 {
        RunAllIdsConsecutive(a.scheduler, requests[1..]);
      }
    }
  }

  /** A new scheduler hands out 0, 1, 2, ...: strictly increasing, so no id is
      handed out twice, for up to 2^31 tasks. */
  lemma FreshSchedulerIds(p: Option<Provider>, requests: seq<(Runnable, Long)>)
    requires |requests| <= INT_MAX + 1
    ensures var ids := RunAll(Scheduler(map[], p, 0), requests).1;
      && (forall i :: 0 <= i < |ids| ==> ids[i] == i)
      && (forall i, j :: 0 <= i < j < |ids| ==> ids[i] < ids[j])
  {
    RunAllIdsConsecutive(Scheduler(map[], p, 0), requests);
  }

  /** The dispatch mode is decided once, by the constructor: a scheduler is
      asynchronous exactly when it was given a thread factory or an executor, and
      queueing tasks or running one does not change that. */
  lemma DispatchModeFixedAtConstruction(p: Provider, s: Scheduler, runnable: Runnable,
                                        timeToRunAt: Long, millis: Long, now: Long, t: Task)
    ensures IsAsynchronousDispatch(NewSchedulerWith(p)) && !IsAsynchronousDispatch(NewScheduler())
    ensures IsAsynchronousDispatch(RunAt(s, runnable, timeToRunAt).scheduler) == IsAsynchronousDispatch(s)
    ensures IsAsynchronousDispatch(RunAfter(s, runnable, millis, now).scheduler) == IsAsynchronousDispatch(s)
    ensures IsAsynchronousDispatch(RunTask(s, t).0) == IsAsynchronousDispatch(s)
  {
  }

  // ---------------------------------------------------------------------------
  // The dispatch pass
  // ---------------------------------------------------------------------------

  /** Every task of `tasks` is the one `queue` holds under its id (true of a
      snapshot, and of any sequence of tasks from a `WellFormed` queue). */
  ghost predicate QueuedUnderOwnIds(tasks: seq<Task>, queue: map<Int, Task>)
  {
    forall i :: 0 <= i < |tasks| ==> tasks[i].id in queue && queue[tasks[i].id] == tasks[i]
  }

  /** `tasks` lists every queued task once (the iteration order of the queue's
      values, which the source leaves unspecified). */
  ghost predicate IsSnapshot(tasks: seq<Task>, queue: map<Int, Task>)
  {
    && (forall i, j :: 0 <= i < j < |tasks| ==> tasks[i].id != tasks[j].id)
    && QueuedUnderOwnIds(tasks, queue)
    && (forall k :: k in queue ==> exists i :: 0 <= i < |tasks| && tasks[i].id == k)
  }

  /** The pass's test `current >= task.timeToRunAt`. */
  predicate Due(t: Task, now: Long)
  {
    now >= t.timeToRunAt
  }

  /** The ids of the due tasks among the first `n` of `tasks`. */
  ghost function DueIds(tasks: seq<Task>, n: nat, now: Long): set<Int>
    requires n <= |tasks|
  {
    set i | 0 <= i < n && Due(tasks[i], now) :: tasks[i].id
  }

  /** What dispatching one task does. */
  function TaskEvents(t: Task, now: Long, async: bool): seq<Event>
  {
    if !Due(t, now) then []
    else if async then [HandedOff(t.id)]
    else
      match t.runnable.run
      case Returns(_) => [Dequeued(t.id), Ran(t.id)]
      case Throws(e) => [Dequeued(t.id), Ran(t.id), Swallowed(t.id, e)]
  }

  /** What dispatching the first `n` of `tasks`, in order, does. */
  function DispatchLog(tasks: seq<Task>, n: nat, now: Long, async: bool): seq<Event>
    requires n <= |tasks|
  {
    if n == 0 then []
    else DispatchLog(tasks, n - 1, now, async) + TaskEvents(tasks[n - 1], now, async)
  }

  /** `next` is what the pass returns having visited the first `n` of `tasks`:
      `Long.MAX_VALUE` when none of them is pending, otherwise (for a clock value
      of at least -1) the earliest pending deadline. */
  ghost predicate EarliestPending(tasks: seq<Task>, n: nat, now: Long, next: Long)
    requires n <= |tasks|
  {
    && (next == LONG_MAX || next > now)
    && ((forall j :: 0 <= j < n ==> Due(tasks[j], now)) ==> next == LONG_MAX)
    && (now >= -1 ==>
          forall j :: 0 <= j < n && !Due(tasks[j], now) ==> next <= tasks[j].timeToRunAt)
    && (now >= -1 ==>
          next == LONG_MAX
          || exists j :: 0 <= j < n && !Due(tasks[j], now) && next == tasks[j].timeToRunAt)
  }

  /** `tick()` at clock value `now`, visiting the tasks in the order `tasks`:
      the scheduler after the pass, what the pass did, and the deadline it
      returns. In the source `tasks` is the queue's values (`IsSnapshot`); the
      effects on the queue and the deadline hold for any sequence of tasks. */
  method Tick(s: Scheduler, tasks: seq<Task>, now: Long) returns (s': Scheduler, log: seq<Event>, nextTick: Long)
    ensures s'.provider == s.provider && s'.idCounter == s.idCounter
    ensures WellFormed(s) ==> WellFormed(s')
    ensures IsAsynchronousDispatch(s) ==> s'.queue == s.queue
    ensures !IsAsynchronousDispatch(s) ==> s'.queue == s.queue - DueIds(tasks, |tasks|, now)
    ensures IsSnapshot(tasks, s.queue) ==>
      forall k :: k in s.queue && !Due(s.queue[k], now) ==> k in s'.queue && s'.queue[k] == s.queue[k]
    ensures log == DispatchLog(tasks, |tasks|, now, IsAsynchronousDispatch(s))
    ensures EarliestPending(tasks, |tasks|, now, nextTick)
  {
    var async := IsAsynchronousDispatch(s);
    var queue := s.queue;
    log := [];
    nextTick := LONG_MAX;
    var i := 0;
    while i < |tasks|
      invariant 0 <= i <= |tasks|
      invariant async ==> queue == s.queue
      invariant !async ==> queue == s.queue - DueIds(tasks, i, now)
      invariant log == DispatchLog(tasks, i, now, async)
      invariant EarliestPending(tasks, i, now, nextTick)
    {
      queue, log, nextTick := Dispatch(tasks, i, s.queue, queue, log, nextTick, now, async);
      i := i + 1;
    }
    if IsSnapshot(tasks, s.queue) {
      PendingNotDue(s, queue, tasks, now, async);
    }
    s' := s.(queue := queue);
  }

  /** The pass's handling of the task `tasks[i]`: a due task is handed off or,
      in synchronous mode, removed from the queue and run; a pending one may
      lower the deadline. One visit extends by one task what the pass has done:
      the dispatch log, the removal of the due tasks (from the queue `start`
      the pass began with) and the earliest pending deadline. */
  method Dispatch(tasks: seq<Task>, i: nat, ghost start: map<Int, Task>, queue: map<Int, Task>,
                  log: seq<Event>, nextTick: Long, now: Long, async: bool)
    returns (queue': map<Int, Task>, log': seq<Event>, nextTick': Long)
    requires i < |tasks|
    ensures log == DispatchLog(tasks, i, now, async) ==> log' == DispatchLog(tasks, i + 1, now, async)
    ensures async ==> queue' == queue
    ensures !async && queue == start - DueIds(tasks, i, now) ==> queue' == start - DueIds(tasks, i + 1, now)
    ensures EarliestPending(tasks, i, now, nextTick) ==> EarliestPending(tasks, i + 1, now, nextTick')
  {
    var task := tasks[i];
    queue', log', nextTick' := queue, log, nextTick;
    if now >= task.timeToRunAt {
      if async {
        log' := log + [HandedOff(task.id)];
      } else {
        queue' := queue - {task.id};
        match task.runnable.run {
          case Returns(_) =>
            log' := log + [Dequeued(task.id), Ran(task.id)];
          case Throws(e) =>
            log' := log + [Dequeued(task.id), Ran(task.id), Swallowed(task.id, e)];
        }
      }
    } else if nextTick != -1 {
      if task.timeToRunAt < nextTick {
        nextTick' := task.timeToRunAt;
      }
    }
    assert log' == log + TaskEvents(task, now, async);
    DispatchLogStep(tasks, i, now, async);
    DueIdsStep(start, tasks, i, now);
    if EarliestPending(tasks, i, now, nextTick) {
      EarliestPendingStep(tasks, i, now, nextTick, nextTick');
    }
  }

  /** One more task extends the dispatch log by that task's events. */
  lemma DispatchLogStep(tasks: seq<Task>, i: nat, now: Long, async: bool)
    requires i < |tasks|
    ensures DispatchLog(tasks, i + 1, now, async) == DispatchLog(tasks, i, now, async) + TaskEvents(tasks[i], now, async)
  {
  }

  /** One more task extends the due ids by its own id when it is due. */
  lemma DueIdsStep(queue: map<Int, Task>, tasks: seq<Task>, i: nat, now: Long)
    requires i < |tasks|
    ensures DueIds(tasks, i + 1, now)
         == DueIds(tasks, i, now) + (if Due(tasks[i], now) then {tasks[i].id} else {})
    ensures queue - DueIds(tasks, i + 1, now)
         == (queue - DueIds(tasks, i, now)) - (if Due(tasks[i], now) then {tasks[i].id} else {})
  {
  }

  /** The pass's update of its deadline for one more task keeps `EarliestPending`. */
  lemma EarliestPendingStep(tasks: seq<Task>, i: nat, now: Long, next: Long, next': Long)
    requires i < |tasks| && EarliestPending(tasks, i, now, next)
    requires next' == if Due(tasks[i], now) || next == -1 || tasks[i].timeToRunAt >= next
                      then next else tasks[i].timeToRunAt
    ensures EarliestPending(tasks, i + 1, now, next')
  {
  }

  /** A queued task that is not due has an id no due task of the snapshot has,
      so the pass leaves it in the queue. */
  lemma PendingNotDue(s: Scheduler, queue: map<Int, Task>, tasks: seq<Task>, now: Long, async: bool)
    requires IsSnapshot(tasks, s.queue)
    requires async ==> queue == s.queue
    requires !async ==> queue == s.queue - DueIds(tasks, |tasks|, now)
    ensures forall k :: k in s.queue && !Due(s.queue[k], now) ==> k in queue && queue[k] == s.queue[k]
  {
  }

  /** `Task.run` as the provider's thread calls it: the task leaves the queue,
      then its runnable runs; a throw goes to that thread, not to the pass. */
  function RunTask(s: Scheduler, t: Task): (r: (Scheduler, seq<Event>, Outcome<()>))
    ensures r.0.queue == s.queue - {t.id} && r.0.provider == s.provider && r.0.idCounter == s.idCounter
    ensures r.1 == [Dequeued(t.id), Ran(t.id)]
    ensures r.2 == t.runnable.run
  {
    (s.(queue := s.queue - {t.id}), [Dequeued(t.id), Ran(t.id)], t.runnable.run)
  }

  /** The provider running the handed-off tasks of `log` in order: each
      `HandedOff(id)` runs the task the queue `start` held under `id` (the task
      object the pass passed to the provider). The scheduler after them, and
      their events. */
  function ProviderRuns(s: Scheduler, start: map<Int, Task>, log: seq<Event>): (r: (Scheduler, seq<Event>))
    ensures r.0.provider == s.provider && r.0.idCounter == s.idCounter
    decreases |log|
  {
    if log == [] then (s, [])
    else
      var p := ProviderRuns(s, start, log[..|log| - 1]);
      var e := log[|log| - 1];
      if e.HandedOff? && e.id in start then
        var t := RunTask(p.0, start[e.id]);
        (t.0, p.1 + t.1)
      else p
  }

  /** Running a task only takes it out of the queue, so every task left is still
      queued under its own id. */
  lemma RunTaskKeepsWellFormed(s: Scheduler, t: Task)
    requires WellFormed(s)
    ensures WellFormed(RunTask(s, t).0)
  {
  }

  /** ... and so does any sequence of provider runs. */
  lemma {:induction false} ProviderRunsKeepWellFormed(s: Scheduler, start: map<Int, Task>, log: seq<Event>)
    requires WellFormed(s)
    ensures WellFormed(ProviderRuns(s, start, log).0)
    decreases |log|
  {
    if log != [] {
      var p := ProviderRuns(s, start, log[..|log| - 1]);
      ProviderRunsKeepWellFormed(s, start, log[..|log| - 1]);
      var e := log[|log| - 1];
      if e.HandedOff? && e.id in start {
        RunTaskKeepsWellFormed(p.0, start[e.id]);
      }
    }
  }

  /** The events of a log other than `Swallowed` ones. */
  function Unswallowed(log: seq<Event>): (r: seq<Event>)
    ensures forall j :: 0 <= j < |r| ==> !r[j].Swallowed?
    ensures |r| <= |log|
    decreases |log|
  {
    if log == [] then []
    else Unswallowed(log[..|log| - 1]) + (if log[|log| - 1].Swallowed? then [] else [log[|log| - 1]])
  }

  lemma {:induction false} UnswallowedAppend(a: seq<Event>, b: seq<Event>)
    ensures Unswallowed(a + b) == Unswallowed(a) + Unswallowed(b)
    decreases |b|
  {
    if b == [] {
      assert a + b == a;
    } else {
      var b' := b[..|b| - 1];
      assert (a + b)[..|a + b| - 1] == a + b';
      assert (a + b)[|a + b| - 1] == b[|b| - 1];
      UnswallowedAppend(a, b');
    }
  }

  lemma UnswallowedSnoc(log: seq<Event>, e: Event)
    ensures Unswallowed(log + [e]) == Unswallowed(log) + (if e.Swallowed? then [] else [e])
  {
    assert (log + [e])[..|log|] == log;
  }

  /** The events of one synchronously run task, without the throw the pass
      swallows, are those of `Task.run`. */
  lemma UnswallowedTaskEvents(t: Task, now: Long)
    requires Due(t, now)
    ensures Unswallowed(TaskEvents(t, now, false)) == [Dequeued(t.id), Ran(t.id)]
  {
    UnswallowedSnoc([], Dequeued(t.id));
    assert [] + [Dequeued(t.id)] == [Dequeued(t.id)];
    UnswallowedSnoc([Dequeued(t.id)], Ran(t.id));
    assert [Dequeued(t.id)] + [Ran(t.id)] == [Dequeued(t.id), Ran(t.id)];
    if t.runnable.run.Throws? {
      var e := Swallowed(t.id, t.runnable.run.thrown);
      UnswallowedSnoc([Dequeued(t.id), Ran(t.id)], e);
      assert [Dequeued(t.id), Ran(t.id)] + [e] == [Dequeued(t.id), Ran(t.id), e];
    }
  }

  /** The provider's runs after one more hand-off. */
  lemma ProviderRunsSnoc(s: Scheduler, start: map<Int, Task>, log: seq<Event>, id: Int)
    requires id in start
    ensures ProviderRuns(s, start, log + [HandedOff(id)])
         == (RunTask(ProviderRuns(s, start, log).0, start[id]).0,
             ProviderRuns(s, start, log).1 + [Dequeued(start[id].id), Ran(start[id].id)])
  {
    assert (log + [HandedOff(id)])[..|log|] == log;
  }

  /** An asynchronous pass over a snapshot (more generally, over tasks queued
      under their own ids), followed by the provider running every task handed
      off, in order, removes from the queue exactly the tasks
      a synchronous pass removes. */
  lemma {:induction false} ProviderRunsRemoveDueTasks(s: Scheduler, tasks: seq<Task>, n: nat, now: Long)
    requires QueuedUnderOwnIds(tasks, s.queue) && n <= |tasks|
    ensures ProviderRuns(s, s.queue, DispatchLog(tasks, n, now, true)).0.queue
         == s.queue - DueIds(tasks, n, now)
  {
    if n == 0 {
      NothingDueAmongNoTasks(s.queue, tasks, now);
    } else {
      ProviderRunsRemoveDueTasks(s, tasks, n - 1, now);
      ProviderRunsQueueStep(s, tasks, n, now);
    }
  }

  lemma NothingDueAmongNoTasks(queue: map<Int, Task>, tasks: seq<Task>, now: Long)
    ensures queue - DueIds(tasks, 0, now) == queue
  {
    assert DueIds(tasks, 0, now) == {};
  }

  /** The induction step of `ProviderRunsRemoveDueTasks`: one more task. */
  lemma ProviderRunsQueueStep(s: Scheduler, tasks: seq<Task>, n: nat, now: Long)
    requires 0 < n <= |tasks| && QueuedUnderOwnIds(tasks, s.queue)
    requires ProviderRuns(s, s.queue, DispatchLog(tasks, n - 1, now, true)).0.queue
          == s.queue - DueIds(tasks, n - 1, now)
    ensures ProviderRuns(s, s.queue, DispatchLog(tasks, n, now, true)).0.queue
         == s.queue - DueIds(tasks, n, now)
  {
    var t := tasks[n - 1];
    var before := DispatchLog(tasks, n - 1, now, true);
    DueIdsStep(s.queue, tasks, n - 1, now);
    if Due(t, now) {
      assert DispatchLog(tasks, n, now, true) == before + [HandedOff(t.id)];
      ProviderRunsSnoc(s, s.queue, before, t.id);
    } else {
      assert DispatchLog(tasks, n, now, true) == before by {
        assert before + [] == before;
      }
    }
  }

  /** ... and produces the events of a synchronous pass, except that a throwing
      runnable's throw goes to the provider's thread instead of being swallowed
      by the pass. */
  lemma {:induction false} ProviderRunsMatchSyncEvents(s: Scheduler, tasks: seq<Task>, n: nat, now: Long)
    requires QueuedUnderOwnIds(tasks, s.queue) && n <= |tasks|
    ensures ProviderRuns(s, s.queue, DispatchLog(tasks, n, now, true)).1
         == Unswallowed(DispatchLog(tasks, n, now, false))
  {
    if n > 0 {
      ProviderRunsMatchSyncEvents(s, tasks, n - 1, now);
      ProviderRunsEventsStep(s, tasks, n, now);
    }
  }

  /** The induction step of `ProviderRunsMatchSyncEvents`: one more task. */
  lemma ProviderRunsEventsStep(s: Scheduler, tasks: seq<Task>, n: nat, now: Long)
    requires 0 < n <= |tasks| && QueuedUnderOwnIds(tasks, s.queue)
    requires ProviderRuns(s, s.queue, DispatchLog(tasks, n - 1, now, true)).1
          == Unswallowed(DispatchLog(tasks, n - 1, now, false))
    ensures ProviderRuns(s, s.queue, DispatchLog(tasks, n, now, true)).1
         == Unswallowed(DispatchLog(tasks, n, now, false))
  {
    var t := tasks[n - 1];
    var before := DispatchLog(tasks, n - 1, now, true);
    var syncBefore := DispatchLog(tasks, n - 1, now, false);
    UnswallowedAppend(syncBefore, TaskEvents(t, now, false));
    if Due(t, now) {
      assert DispatchLog(tasks, n, now, true) == before + [HandedOff(t.id)];
      ProviderRunsSnoc(s, s.queue, before, t.id);
      UnswallowedTaskEvents(t, now);
    } else {
      assert DispatchLog(tasks, n, now, true) == before by {
        assert before + [] == before;
      }
      assert DispatchLog(tasks, n, now, false) == syncBefore by {
        assert syncBefore + [] == syncBefore;
      }
    }
  }

  // ---------------------------------------------------------------------------
  // Properties of the dispatch log
  // ---------------------------------------------------------------------------

  /** The events of one task all concern that task, and there are none unless
      it is due. */
  lemma TaskEventsShape(t: Task, now: Long, async: bool)
    ensures |TaskEvents(t, now, async)| > 0 ==> Due(t, now)
    ensures forall j :: 0 <= j < |TaskEvents(t, now, async)| ==> TaskEvents(t, now, async)[j].id == t.id
    ensures async ==> forall j :: 0 <= j < |TaskEvents(t, now, async)| ==> TaskEvents(t, now, async)[j].HandedOff?
    ensures !async && Due(t, now) ==>
      2 <= |TaskEvents(t, now, async)|
      && TaskEvents(t, now, async)[0] == Dequeued(t.id) && TaskEvents(t, now, async)[1] == Ran(t.id)
    ensures forall j :: 0 <= j < |TaskEvents(t, now, async)| && TaskEvents(t, now, async)[j].Ran? ==> j == 1
  {
  }

  /** Every event of a pass concerns a due task: a task that is not yet due is
      neither run, nor removed, nor handed off. */
  lemma {:induction false} DispatchLogOnlyDueTasks(tasks: seq<Task>, n: nat, now: Long, async: bool)
    requires n <= |tasks|
    ensures forall j :: 0 <= j < |DispatchLog(tasks, n, now, async)| ==>
      DispatchLog(tasks, n, now, async)[j].id in DueIds(tasks, n, now)
  {
    if n > 0 {
      DispatchLogOnlyDueTasks(tasks, n - 1, now, async);
      var prefix := DispatchLog(tasks, n - 1, now, async);
      var last := TaskEvents(tasks[n - 1], now, async);
      var log := DispatchLog(tasks, n, now, async);
      assert log == prefix + last;
      DueIdsStep(map[], tasks, n - 1, now);
      TaskEventsShape(tasks[n - 1], now, async);
      forall j | 0 <= j < |log| ensures log[j].id in DueIds(tasks, n, now) {
        if j < |prefix| {
          assert log[j] == prefix[j];
        } else {
          assert log[j] == last[j - |prefix|];
        }
      }
    }
  }

  /** In asynchronous mode a pass only hands tasks off, and hands off every due
      task. */
  lemma {:induction false} AsyncPassHandsOffEveryDueTask(tasks: seq<Task>, n: nat, now: Long)
    requires n <= |tasks|
    ensures forall j :: 0 <= j < |DispatchLog(tasks, n, now, true)| ==>
      DispatchLog(tasks, n, now, true)[j].HandedOff?
    ensures forall i :: 0 <= i < n && Due(tasks[i], now) ==>
      HandedOff(tasks[i].id) in DispatchLog(tasks, n, now, true)
  {
    if n > 0 {
      AsyncPassHandsOffEveryDueTask(tasks, n - 1, now);
      var prefix := DispatchLog(tasks, n - 1, now, true);
      var last := TaskEvents(tasks[n - 1], now, true);
      var log := DispatchLog(tasks, n, now, true);
      assert log == prefix + last;
      TaskEventsShape(tasks[n - 1], now, true);
      forall j | 0 <= j < |log| ensures log[j].HandedOff? {
        if j < |prefix| {
          assert log[j] == prefix[j];
        } else {
          assert log[j] == last[j - |prefix|];
        }
      }
    }
  }

  /** In synchronous mode a pass runs every due task, a throwing one included,
      and removes each task from the queue right before running it. */
  lemma {:induction false} SyncPassRunsEveryDueTaskAfterDequeue(tasks: seq<Task>, n: nat, now: Long)
    requires n <= |tasks|
    ensures forall i :: 0 <= i < n && Due(tasks[i], now) ==>
      Ran(tasks[i].id) in DispatchLog(tasks, n, now, false)
    ensures forall j :: 0 <= j < |DispatchLog(tasks, n, now, false)| && DispatchLog(tasks, n, now, false)[j].Ran? ==>
      0 < j && DispatchLog(tasks, n, now, false)[j - 1] == Dequeued(DispatchLog(tasks, n, now, false)[j].id)
  {
    if n > 0 {
      SyncPassRunsEveryDueTaskAfterDequeue(tasks, n - 1, now);
      var prefix := DispatchLog(tasks, n - 1, now, false);
      var last := TaskEvents(tasks[n - 1], now, false);
      var log := DispatchLog(tasks, n, now, false);
      assert log == prefix + last;
      TaskEventsShape(tasks[n - 1], now, false);
      forall j | 0 <= j < |log| && log[j].Ran?
        ensures 0 < j && log[j - 1] == Dequeued(log[j].id)
      {
        if j >= |prefix| {
          assert log[j] == last[j - |prefix|];
          assert log[j - 1] == last[j - 1 - |prefix|];
        } else {
          assert log[j] == prefix[j];
          assert log[j - 1] == prefix[j - 1];
        }
      }
      if Due(tasks[n - 1], now) {
        assert log[|prefix| + 1] == Ran(tasks[n - 1].id);
      }
    }
  }
}
